=== FILE: README.md ===
# HealthguardAI dashboards — a Dafny model of the client-side data logic

HealthguardAI's web front end has three pages: the auditor's fraud dashboard
(`audit.js`), the provider portal (`provider.js`) and the patient profile
(`user.js`). This project models the pure data transformations of those
scripts and proves what they promise. It covers:

- how a fetched claim is normalised and ordered;
- the case-insensitive claim-table filter;
- the CSS class sanitiser and the reason truncation of the claims table;
- the four chart aggregations: amount histogram, prediction doughnut,
  risk-level bars, and the top-five provider tally;
- the high-risk alert list and the "fraud detected" figure;
- the CSV export;
- the local review update;
- the provider portal's exact-match filters;
- the profile page's `safe` / `formatAmount` / `statusPill` helpers and
  its profile card;
- the light/dark theme switch that all three pages share.

The modules follow the program's structure:

| file | module | contents |
|---|---|---|
| `basics.dfy` | `Basics` | `Option`, `Result`, `Min` |
| `seqs.dfy` | `Seqs` | counting, `filter`, `slice`, `join`/`split`, a stable descending sort |
| `text.dfy` | `Text` | JavaScript's `\s`, ASCII case mapping, `includes`, `trim`, `replace(/\s+/g, "-")` |
| `js.dfy` | `Js` | numbers with NaN and the infinities, scalar values, truthiness, `String(v)` for integers |
| `claims.dfy` | `Claims` | the claim record, field defaulting, newest-first order |
| `audit_table.dfy` | `AuditTable` | `sanitizeClass`, the reason cell, the table body |
| `audit_filter.dfy` | `AuditFilter` | `filterAndRender`'s predicate |
| `audit_charts.dfy` | `AuditCharts` | the chart tallies |
| `audit_alerts.dfy` | `AuditAlerts` | `updateFraudAlerts` and the suspicious-claim count |
| `audit_csv.dfy` | `AuditCsv` | `exportToCSV` |
| `audit_review.dfy` | `AuditReview` | `openClaimModal`'s lookup, `saveReview` and the Save button guard |
| `theme.dfy` | `Theme` | the theme switch |
| `provider_page.dfy` | `ProviderPage` | `applyFilters` |
| `user_page.dfy` | `UserPage` | `safe`, `formatAmount`, `statusPill`, `renderProfile` |

Every operation is a pure function or a method on immutable values. Where the
script mutates `claimsData` in place, the model returns the new sequence.

## Model

| member | source | states |
|---|---|---|
| `Claims.NormalizeEmbed` | user_side/FrontEnd/static/js/audit.js:682-698 | normalising a payload that carries a claim under the primary keys gives back exactly that claim |
| `Claims.NormalizeDefaults` | user_side/FrontEnd/static/js/audit.js:683-694 | an empty payload yields `""` ids, amount 0, status `Unknown`, risk `""`, score 0, reason `No reason provided`, no review |
| `Claims.NormalizeFallbacks` | user_side/FrontEnd/static/js/audit.js:683-694 | every present key wins over the keys after it in its chain; the alternative keys (`id`, `amount_claimed`, `risk`, `reason`, `detection_reason`) are used only when the keys before them are absent; a chain with no key present takes its default (`""`, 0, `Unknown`, the default reason); `review_status` is copied as is |
| `Claims.NewestFirst` | user_side/FrontEnd/static/js/audit.js:703 | the initial order is a permutation of the fetched claims with claim ids non-increasing |
| `AuditTable.SanitizeClass` | user_side/FrontEnd/static/js/audit.js:63-66 | the class holds only `a-z`, `0-9`, `-`, `_`, and is empty for every falsy value |
| `AuditTable.SanitizeTextRun` | user_side/FrontEnd/static/js/audit.js:63-66 | a white-space run between two words becomes exactly one `-` in the class, and the words on either side are sanitised independently |
| `AuditTable.SanitizeTextFixes` | user_side/FrontEnd/static/js/audit.js:63-66 | text that is already a valid class passes through unchanged |
| `AuditTable.SanitizeClassIdempotent` | user_side/FrontEnd/static/js/audit.js:63-66 | sanitising a sanitised class changes nothing |
| `AuditTable.SanitizeTextKeepsWords` | user_side/FrontEnd/static/js/audit.js:63-66 | the letters, digits and underscores of the lower-cased input all survive, in order; only spaces, dashes and other characters are rewritten or dropped |
| `AuditTable.ReasonCell` | user_side/FrontEnd/static/js/audit.js:767-770 | a reason over 100 characters shows its first 100 followed by exactly `...` (103 in all); a shorter one shows in full; an empty one shows the default text |
| `AuditFilter.FilteredTable` | user_side/FrontEnd/static/js/audit.js:730-761 | after filtering, the table shows "No claims data available" exactly when no claim is loaded, "No claims match your filters" exactly when claims are loaded but none passes, and otherwise rows, as many as there are passing claims |
| `AuditFilter.FilterClaims` | user_side/FrontEnd/static/js/audit.js:730-744 | the kept claims are an order-preserving subsequence; a claim is kept exactly when its status contains the status choice, its risk equals the risk choice and an id contains the search text (each ignoring case, `""`/`all` meaning any); with no constraint every claim is kept; the number kept is the number of claims passing |
| `AuditFilter.SearchIgnoresCase` | user_side/FrontEnd/static/js/audit.js:738-741 | typing the search text in any letter case selects the same claims |
| `AuditFilter.MatchesIgnoresClaimCase` | user_side/FrontEnd/static/js/audit.js:731-741 | changing the letter case of a claim's status, risk or ids never changes whether it is kept |
| `AuditCharts.CountPredictions` | user_side/FrontEnd/static/js/audit.js:235-245 | each slice counts the claims its classification assigns to it, and the three slices add up to the number of claims |
| `AuditCharts.AsWrittenCountsNotFraudAsFraud` | user_side/FrontEnd/static/js/audit.js:236-243 | as written, a `NOT FRAUD` status always lands in FRAUD, and NOT FRAUD is reached only by an `APPROVED` status without `FRAUD` |
| `AuditCharts.NotFraudStatusMisclassified` | user_side/FrontEnd/static/js/audit.js:236-243 | the status `Not Fraud` is counted as FRAUD as written and as NOT FRAUD by the corrected order |
| `AuditCharts.ClassifyIntendedSeparates` | user_side/FrontEnd/static/js/audit.js:236-243 | the corrected classification is FRAUD exactly for statuses mentioning fraud but not `NOT FRAUD`, and agrees with the code on every status without `NOT FRAUD` |
| `AuditCharts.PredictionChartAsWritten` | user_side/FrontEnd/static/js/audit.js:229-245 | as the page counts, the FRAUD slice holds every status mentioning fraud, `NOT FRAUD` included, the NOT FRAUD slice only statuses with `APPROVED` and no mention of fraud, and the slices add up to the number of claims |
| `AuditCharts.PredictionChart` | user_side/FrontEnd/static/js/audit.js:229-245 | with the corrected order, the FRAUD slice counts exactly the statuses mentioning fraud but not `NOT FRAUD`, every `NOT FRAUD` status is in the NOT FRAUD slice, and the slices add up to the number of claims |
| `AuditCharts.CountRiskLevels` | user_side/FrontEnd/static/js/audit.js:303-308 | each bar counts the claims whose risk is exactly `High`, `Medium` or `Low`; other spellings are not counted, so the bars add up to at most the number of claims |
| `AuditCharts.AmountBucketRanges` | user_side/FrontEnd/static/js/audit.js:386-392 | the four ranges `<1000`, `<5000`, `<10000` and the rest, with NaN and +Infinity in the last one and -Infinity in the first |
| `AuditCharts.CountAmounts` | user_side/FrontEnd/static/js/audit.js:386-392 | each range counts the claims whose amount falls in it, and the four counts add up to the number of claims |
| `AuditCharts.ProviderStats` | user_side/FrontEnd/static/js/audit.js:453-462 | one entry per provider; each total is that provider's number of claims and each fraudulent count its number of High-risk or fraud-status claims; every claim's provider has an entry and the totals add up to the number of claims |
| `AuditCharts.TopDominates` | user_side/FrontEnd/static/js/audit.js:464-467 | no tally left out of the top five has more claims than any kept |
| `AuditCharts.TopProviders` | user_side/FrontEnd/static/js/audit.js:464-467 | at most five tallies taken from the full list, busiest first, none left out busier than one kept; distinct providers stay distinct, and a list of five or fewer is kept whole |
| `AuditCharts.ProviderAnalysis` | user_side/FrontEnd/static/js/audit.js:453-467 | the chart shows at most five providers, busiest first, each with its exact totals and `fraudulent <= total`, no provider appears twice, no provider left out has more claims than one shown, when fewer than five are shown every provider is shown, and every provider shown has at least one claim and is the provider of some claim |
| `AuditAlerts.FraudAlerts` | user_side/FrontEnd/static/js/audit.js:850-852 | the alerts are the first `min(5, #High)` claims rated exactly `High`, in table order |
| `AuditAlerts.SuspiciousCount` | user_side/FrontEnd/static/js/audit.js:812-814 | the figure is the number of High-risk claims plus the number of other claims whose status mentions fraud, so each claim counts once; it is at most the number of claims |
| `AuditCsv.UnquoteQuote` | user_side/FrontEnd/static/js/audit.js:1023 | reading the quoted reason field back gives the original reason |
| `AuditCsv.QuoteFieldInjective` | user_side/FrontEnd/static/js/audit.js:1023 | two different reasons never export as the same field |
| `AuditCsv.RowFields` | user_side/FrontEnd/static/js/audit.js:1014-1024 | the field list has one entry per column title: the claim id, patient id, provider id, amount text, status, risk and score text in that order, then the quoted reason, which reads back as the claim's reason |
| `AuditCsv.ExportCsv` | user_side/FrontEnd/static/js/audit.js:1011-1025 | the export starts with the header line and is just the header for no claims |
| `AuditCsv.ExportCsvLines` | user_side/FrontEnd/static/js/audit.js:1011-1025 | when no cell holds a line break, the export splits into the header followed by one line per claim, in order |
| `AuditReview.FindClaim` | user_side/FrontEnd/static/js/audit.js:945 | the lookup fails exactly when no claim has the id, and otherwise returns the first claim with that id |
| `AuditReview.SaveReview` | user_side/FrontEnd/static/js/audit.js:1036-1045 | only the first claim with the id gets the action and notes; every other claim is unchanged, and with no such claim nothing changes |
| `AuditReview.FindAfterSave` | user_side/FrontEnd/static/js/audit.js:1041-1044 | reopening the claim after saving shows the saved action and notes |
| `AuditReview.SaveReviewIdempotent` | user_side/FrontEnd/static/js/audit.js:1041-1044 | saving the same review twice equals saving it once |
| `AuditReview.SubmitReview` | user_side/FrontEnd/static/js/audit.js:997-1001 | nothing changes unless a claim is open and an action is chosen; otherwise the list keeps its length and ids, reopening the open claim shows the chosen action and notes, and every other id opens the same claim as before |
| `AuditReview.SaveReviewOthers` | user_side/FrontEnd/static/js/audit.js:1041-1044 | saving a review on one id changes what no other id opens |
| `Theme.InitialTheme` | user_side/FrontEnd/static/js/audit.js:77 | the applied theme is never empty, and is light or dark exactly when nothing, an empty value, or a theme name is stored |
| `Theme.ReloadKeepsToggle` | user_side/FrontEnd/static/js/audit.js:77-90 | a click stores the theme it applies, so the next page load starts from that theme |
| `Theme.Toggle` | user_side/FrontEnd/static/js/audit.js:86-90 | a click always yields light or dark, and dark exactly when the page was light |
| `Theme.ToggleInvolution` | user_side/FrontEnd/static/js/provider.js:67-68 | two clicks from light or dark return to the starting theme |
| `Theme.ToggleRepairs` | user_side/FrontEnd/static/js/user.js:80-81 | a missing or unknown theme becomes light on the first click, and clicks alternate from then on |
| `ProviderPage.ApplyFilters` | user_side/FrontEnd/static/js/provider.js:198-202 | the shown claims are an order-preserving subsequence; a claim is shown exactly when its status and type equal the chosen values (case-sensitively), an empty choice meaning any; with both empty every claim is shown; the number shown is the number of claims passing |
| `ProviderPage.ApplyFiltersSeparately` | user_side/FrontEnd/static/js/provider.js:199-201 | filtering by status and then by type is the same as filtering by both |
| `ProviderPage.SampleFilters` | user_side/FrontEnd/static/js/provider.js:198-202 | on the built-in claim, `approved`/`inpatient` keeps it while `Approved` or `outpatient` drops it |
| `UserPage.Safe` | user_side/FrontEnd/static/js/user.js:102-104 | `""` for null and undefined, the string itself for a string, `true`/`false` for booleans, decimal text that reads back to the integer for a number; empty only for null, undefined and `""` |
| `UserPage.FormatAmount` | user_side/FrontEnd/static/js/user.js:116-119 | `-` exactly for falsy amounts, 0 included; otherwise a `$`-prefixed text, `$<digits>.00` for an integer and `$NaN` for `true` |
| `UserPage.FormatAmountReadsBack` | user_side/FrontEnd/static/js/user.js:116-119 | the integer amount can be read back from its displayed text |
| `UserPage.StatusPill` | user_side/FrontEnd/static/js/user.js:121-124 | the call throws exactly for a truthy non-string status; otherwise the caption is `safe(status)` and the class starts with `status-` and holds no white space |
| `UserPage.PillClassRun` | user_side/FrontEnd/static/js/user.js:122 | a white-space run between two words of a status becomes exactly one `-`, and the words on either side are rewritten independently |
| `UserPage.PillClassNoSpace` | user_side/FrontEnd/static/js/user.js:122 | a status without white space becomes its lower-cased text, every character including `-` kept |
| `UserPage.PillClassKeepsText` | user_side/FrontEnd/static/js/user.js:122 | every character of the lower-cased status other than white space and `-` is kept, in order, and no other such character appears; `UserPage.PillClassRun` states what a white-space run becomes and `UserPage.PillClassNoSpace` that a status without white space keeps its dashes |
| `UserPage.PillKeepsWhatSanitizeDrops` | user_side/FrontEnd/static/js/user.js:122 | a character outside `[a-z0-9_-]` that the table's sanitiser removes stays in the pill class |
| `UserPage.HistoryText` | user_side/FrontEnd/static/js/user.js:137-138 | `-` when the history is not an array or is empty; otherwise the line starts with the first entry's text and is exactly that text for a single entry |
| `UserPage.HistoryTextSplits` | user_side/FrontEnd/static/js/user.js:137-138 | with no comma inside an entry, the line splits back into the entries in order, each after the first with the separator's space |
| `UserPage.FullName` | user_side/FrontEnd/static/js/user.js:128 | the name line is the joined `first last` text with its outer white space removed and nothing else: no white space at either end, a contiguous part of the joined text with only white space after it, and exactly `first last` for two non-empty names with no outer white space |
| `UserPage.RenderProfile` | user_side/FrontEnd/static/js/user.js:127-143 | the sidebar name is the full name, and two non-empty names with no outer white space give `first last`; the id line is `Patient ID: ` followed by the id; age is `-` exactly for a falsy age and otherwise the age followed by ` years`; gender, phone, insurance id and address show their text when it is non-empty and `-` otherwise; the greeting falls back to `User` |
| `UserPage.BlankNameIsEmpty` | user_side/FrontEnd/static/js/user.js:128 | a blank first and last name give an empty full name, not a lone space |
| `Js.IntegerTextRoundTrip` | user_side/FrontEnd/static/js/user.js:103 | the decimal text `String(n)` gives for an integer reads back to that integer |

## Left out

- `AuditCsv.RowFields`: only the reason cell is quoted (audit.js:1014-1024); an id, status or risk holding `,` or `"` is written as it is and shifts the columns of the exported line, so the model promises one field per column title, not one cell per column of the parsed line.
- Network, DOM and browser services are not modelled. This covers `fetch`, `res.json()`, the `innerHTML` templates and modals, tabs, Chart.js, `setInterval`, `localStorage`, `alert` and `console`. The theme switch is a function on strings; storage and the `data-theme` attribute become its arguments.
- Letter case is mapped on ASCII letters only; JavaScript's `toLowerCase`/`toUpperCase` map all of Unicode.
- Strings are sequences of code points rather than UTF-16 code units. This matters only for `length`/`substring` on text outside the Basic Multilingual Plane, in the reason truncation.
- `Claims.NewestFirst`: orders claim ids by code point, not by `localeCompare`'s locale collation, and the stable insertion sort stands in for the engine's sort.
- Numbers are exact reals plus NaN and the infinities; double rounding is not modelled. `Number(...)` and `parseFloat` on the raw payload are left out, so a raw amount is already a `Number`.
- `AuditCsv.ExportCsv`: a number's text form (`String(n)` on a double) is a parameter, since the shortest round-trip double printer is not modelled.
- `UserPage.FormatAmount`: `parseFloat(s).toFixed(2)` for a string amount is a parameter; non-integral numeric amounts are not representable, since `Value` holds safe integers only.
- Ids and statuses are strings after normalisation. Numeric ids from the server and the `.toString()` on status and risk are left out.
- `AuditCharts.ProviderStats`: lists providers in first-appearance order. `Object.entries` lists integer-like keys first, in ascending order, so the tie order among equal totals can differ.
- `AuditCharts.ProviderStats`: a provider id naming an inherited `Object.prototype` member (`constructor`, `toString`, `__proto__`, …) finds that truthy inherited value, so the script creates no entry of its own for it and `Object.entries` leaves it out: such a provider vanishes from the chart. The model gives every provider id its own entry.
- `AuditAlerts.SuspiciousCount`: `updateDashboard` returns before computing it when no claims are loaded, so the page then keeps its previous figure.
- `AuditAlerts.FraudAlerts`: that same early return skips `updateFraudAlerts`, so with no claims loaded the alert list keeps what it showed before; the model's empty list is what the function computes, not what the page shows.
- `AuditCharts.PredictionChart`, `AuditCharts.CountRiskLevels`, `AuditCharts.CountAmounts`, `AuditCharts.ProviderAnalysis`: with no claims loaded `updateDashboard` and `createAllCharts` return before drawing, so the charts keep what they showed before; the models' all-zero counts and empty list are what the tallies compute, not what the page shows.
- The KPI arithmetic (total amount, detection rate, recovery and ROI) is floating-point display arithmetic and is left out, as are the ROI and accuracy-trend charts built on random or fixed numbers.
- The patient-details fields of the review modal, the fraud-risk gauge and the CSV file name (which reads the clock) are left out.
- The commented-out second implementation at the end of `provider.js` (lines 236-461) is not live code and is not modelled. `ProviderPage.SampleClaims` is the live built-in claim list `userData.claims` (`provider.js` lines 30-42).
- `AuditCsv.ExportCsvLines`: the split property is stated only for claims whose cells hold no line break. A line break inside the quoted reason is valid CSV but splits the export at that point; a quote-aware reader is not modelled.

## Findings

| source | as written | input that shows it | evidently intended | confidence | as-written member | corrected member |
|---|---|---|---|---|---|---|
| user_side/FrontEnd/static/js/audit.js:236-243 | the prediction chart tests `includes('FRAUD')` before `includes('NOT FRAUD')`, so the second test can never succeed | a claim with status `Not Fraud` is counted in the FRAUD slice | a `NOT FRAUD` status counts as NOT FRAUD | not executed | `AuditCharts.NotFraudStatusMisclassified`, `AuditCharts.PredictionChartAsWritten` | `AuditCharts.PredictionChart` |

=== FILE: audit_alerts.dfy ===
/** The dashboard's alert panel and its "fraud detected" figure. */
module AuditAlerts {
  import opened Basics
  import opened Seqs
  import opened Text
  import opened Claims

  predicate IsHighRisk(c: Claim) {
    c.fraudRisk == "High"
  }

  const AlertLimit := 5

  /** `updateFraudAlerts`: the first five claims rated exactly `High`, in table order. */
  function FraudAlerts(claims: seq<Claim>): (alerts: seq<Claim>)
    ensures |alerts| == Min(AlertLimit, CountIf(claims, IsHighRisk))
    ensures forall i :: 0 <= i < |alerts| ==> alerts[i].fraudRisk == "High"
    ensures IsPrefix(alerts, Filter(claims, IsHighRisk))
    ensures IsSubsequence(alerts, claims)
  {
    var high := Filter(claims, IsHighRisk);
    FilterIsSubsequence(claims, IsHighRisk);
    SubsequenceTake(high, claims, AlertLimit);
    Take(high, AlertLimit)
  }

  /** Not rated `High`, but with a status that mentions fraud. */
  predicate FraudStatusOnly(c: Claim) {
    !IsHighRisk(c) && Contains(Lower(c.status), "fraud")
  }

  /** The "fraud detected" figure: claims rated `High` or whose status mentions
      fraud, each counted once. It is the number of `High` claims plus the
      number of other claims whose status mentions fraud. */
  function SuspiciousCount(claims: seq<Claim>): (n: nat)
    ensures n == CountIf(claims, IsHighRisk) + CountIf(claims, FraudStatusOnly)
    ensures CountIf(claims, IsHighRisk) <= n <= |claims|
  {
    CountIfDisjointUnion(claims, IsHighRisk, FraudStatusOnly, LooksFraudulent);
    CountIf(claims, LooksFraudulent)
  }
}

=== FILE: audit_charts.dfy ===
/** The aggregation passes behind the audit dashboard's charts: the prediction
    doughnut, the risk-level bars, the amount histogram and the top providers. */
module AuditCharts {
  import opened Basics
  import opened Seqs
  import opened Text
  import opened Js
  import opened Claims

  // ---------------------------------------------------------------------------
  // Predictions
  // ---------------------------------------------------------------------------

  datatype Prediction = Fraud | NotFraud | Suspicious

  /** The classification as the chart code performs it: the `FRAUD` test comes
      first, so the `NOT FRAUD` test after it can never succeed. */
  function ClassifyAsWritten(status: string): Prediction {
    var u := Upper(status);
    if Contains(u, "FRAUD") then Fraud
    else if Contains(u, "NOT FRAUD") || Contains(u, "APPROVED") then NotFraud
    else Suspicious
  }

  /** The classification the labels call for: a `NOT FRAUD` status is not fraud. */
  function ClassifyIntended(status: string): Prediction {
    var u := Upper(status);
    if Contains(u, "NOT FRAUD") then NotFraud
    else if Contains(u, "FRAUD") then Fraud
    else if Contains(u, "APPROVED") then NotFraud
    else Suspicious
  }

  /** Any text containing `NOT FRAUD` also contains `FRAUD`. */
  lemma NotFraudContainsFraud(u: string)
    requires Contains(u, "NOT FRAUD")
    ensures Contains(u, "FRAUD")
  {
    ContainsIffOccurs(u, "NOT FRAUD");
    var i :| OccursAt(u, "NOT FRAUD", i);
    assert u[i + 4..i + 9] == u[i..i + 9][4..];
    assert OccursAt(u, "FRAUD", i + 4);
    ContainsIffOccurs(u, "FRAUD");
  }

  /** As written, every status mentioning `NOT FRAUD` lands in the FRAUD slice,
      and the NOT FRAUD slice is reached only through `APPROVED`. */
  lemma AsWrittenCountsNotFraudAsFraud(status: string)
    ensures Contains(Upper(status), "NOT FRAUD") ==> ClassifyAsWritten(status) == Fraud
    ensures ClassifyAsWritten(status) == NotFraud
            <==> !Contains(Upper(status), "FRAUD") && Contains(Upper(status), "APPROVED")
  {
    var u := Upper(status);
    if Contains(u, "NOT FRAUD") {
      NotFraudContainsFraud(u);
    }
  }

  /** The concrete status that shows the discrepancy. */
  lemma NotFraudStatusMisclassified()
    ensures ClassifyAsWritten("Not Fraud") == Fraud
    ensures ClassifyIntended("Not Fraud") == NotFraud
  {
    var u := Upper("Not Fraud");
    assert u == "NOT FRAUD";
    assert IsPrefix("NOT FRAUD", u);
    NotFraudContainsFraud(u);
  }

  /** The intended classification: FRAUD exactly for statuses that mention
      fraud but not `NOT FRAUD`, and it agrees with the code everywhere else. */
  lemma ClassifyIntendedSeparates(status: string)
    ensures ClassifyIntended(status) == Fraud
            <==> Contains(Upper(status), "FRAUD") && !Contains(Upper(status), "NOT FRAUD")
    ensures Contains(Upper(status), "NOT FRAUD") ==> ClassifyIntended(status) == NotFraud
    ensures !Contains(Upper(status), "NOT FRAUD") ==> ClassifyIntended(status) == ClassifyAsWritten(status)
  {
  }

  datatype PredictionCounts = PredictionCounts(fraud: nat, notFraud: nat, suspicious: nat)

  /** The claims a classification puts in one slice. */
  function InSlice(classify: string -> Prediction, slice: Prediction): Claim -> bool {
    (c: Claim) => classify(c.status) == slice
  }

  /** The `forEach` tally of the doughnut chart, for a given classification. */
  method CountPredictions(claims: seq<Claim>, classify: string -> Prediction)
    returns (counts: PredictionCounts)
    ensures counts.fraud == CountIf(claims, InSlice(classify, Fraud))
    ensures counts.notFraud == CountIf(claims, InSlice(classify, NotFraud))
    ensures counts.suspicious == CountIf(claims, InSlice(classify, Suspicious))
    ensures counts.fraud + counts.notFraud + counts.suspicious == |claims|
  {
    counts := PredictionCounts(0, 0, 0);
    for i := 0 to |claims|
      invariant counts.fraud == CountIf(claims[..i], InSlice(classify, Fraud))
      invariant counts.notFraud == CountIf(claims[..i], InSlice(classify, NotFraud))
      invariant counts.suspicious == CountIf(claims[..i], InSlice(classify, Suspicious))
      invariant counts.fraud + counts.notFraud + counts.suspicious == i
    {
      CountIfSnoc(claims, i, InSlice(classify, Fraud));
      CountIfSnoc(claims, i, InSlice(classify, NotFraud));
      CountIfSnoc(claims, i, InSlice(classify, Suspicious));
      match classify(claims[i].status)
      case Fraud => counts := counts.(fraud := counts.fraud + 1);
      case NotFraud => counts := counts.(notFraud := counts.notFraud + 1);
      case Suspicious => counts := counts.(suspicious := counts.suspicious + 1);
    }
    assert claims[..|claims|] == claims;
  }

  /** The doughnut's data under the corrected classification: the FRAUD slice
      counts the statuses mentioning fraud but not `NOT FRAUD`, and every
      `NOT FRAUD` status is in the NOT FRAUD slice. */
  method PredictionChart(claims: seq<Claim>) returns (counts: PredictionCounts)
    ensures counts.fraud == CountIf(claims, (c: Claim) =>
              Contains(Upper(c.status), "FRAUD") && !Contains(Upper(c.status), "NOT FRAUD"))
    ensures counts.notFraud >= CountIf(claims, (c: Claim) => Contains(Upper(c.status), "NOT FRAUD"))
    ensures counts.fraud + counts.notFraud + counts.suspicious == |claims|
  {
    counts := CountPredictions(claims, ClassifyIntended);
    forall i | 0 <= i < |claims|
      ensures (ClassifyIntended(claims[i].status) == Fraud)
           == (Contains(Upper(claims[i].status), "FRAUD") && !Contains(Upper(claims[i].status), "NOT FRAUD"))
      ensures Contains(Upper(claims[i].status), "NOT FRAUD") ==> ClassifyIntended(claims[i].status) == NotFraud
    {
      ClassifyIntendedSeparates(claims[i].status);
    }
    CountIfCongruent(claims, InSlice(ClassifyIntended, Fraud), (c: Claim) =>
      Contains(Upper(c.status), "FRAUD") && !Contains(Upper(c.status), "NOT FRAUD"));
    CountIfMonotone(claims, (c: Claim) => Contains(Upper(c.status), "NOT FRAUD"),
      InSlice(ClassifyIntended, NotFraud));
  }

  /** The doughnut's data as the page draws it: the FRAUD slice counts every
      status mentioning fraud, `NOT FRAUD` included, and the NOT FRAUD slice
      counts only statuses with `APPROVED` and no mention of fraud. */
  method PredictionChartAsWritten(claims: seq<Claim>) returns (counts: PredictionCounts)
    ensures counts.fraud == CountIf(claims, (c: Claim) => Contains(Upper(c.status), "FRAUD"))
    ensures counts.notFraud == CountIf(claims, (c: Claim) =>
              !Contains(Upper(c.status), "FRAUD") && Contains(Upper(c.status), "APPROVED"))
    ensures counts.fraud + counts.notFraud + counts.suspicious == |claims|
  {
    counts := CountPredictions(claims, ClassifyAsWritten);
    forall i | 0 <= i < |claims|
      ensures (ClassifyAsWritten(claims[i].status) == NotFraud)
           == (!Contains(Upper(claims[i].status), "FRAUD") && Contains(Upper(claims[i].status), "APPROVED"))
    {
      AsWrittenCountsNotFraudAsFraud(claims[i].status);
    }
    CountIfCongruent(claims, InSlice(ClassifyAsWritten, Fraud), (c: Claim) =>
      Contains(Upper(c.status), "FRAUD"));
    CountIfCongruent(claims, InSlice(ClassifyAsWritten, NotFraud), (c: Claim) =>
      !Contains(Upper(c.status), "FRAUD") && Contains(Upper(c.status), "APPROVED"));
  }

  // ---------------------------------------------------------------------------
  // Risk levels
  // ---------------------------------------------------------------------------

  datatype RiskCounts = RiskCounts(high: nat, medium: nat, low: nat)

  /** The keys of the risk tally; anything else, in any other letter case, is skipped. */
  predicate IsRiskLevel(risk: string) {
    risk == "High" || risk == "Medium" || risk == "Low"
  }

  /** The `forEach` tally of the risk-level bar chart. */
  method CountRiskLevels(claims: seq<Claim>) returns (counts: RiskCounts)
    ensures counts.high == CountIf(claims, (c: Claim) => c.fraudRisk == "High")
    ensures counts.medium == CountIf(claims, (c: Claim) => c.fraudRisk == "Medium")
    ensures counts.low == CountIf(claims, (c: Claim) => c.fraudRisk == "Low")
    ensures counts.high + counts.medium + counts.low == CountIf(claims, (c: Claim) => IsRiskLevel(c.fraudRisk))
    ensures counts.high + counts.medium + counts.low <= |claims|
  {
    counts := RiskCounts(0, 0, 0);
    for i := 0 to |claims|
      invariant counts.high == CountIf(claims[..i], (c: Claim) => c.fraudRisk == "High")
      invariant counts.medium == CountIf(claims[..i], (c: Claim) => c.fraudRisk == "Medium")
      invariant counts.low == CountIf(claims[..i], (c: Claim) => c.fraudRisk == "Low")
      invariant counts.high + counts.medium + counts.low == CountIf(claims[..i], (c: Claim) => IsRiskLevel(c.fraudRisk))
    {
      CountIfSnoc(claims, i, (c: Claim) => c.fraudRisk == "High");
      CountIfSnoc(claims, i, (c: Claim) => c.fraudRisk == "Medium");
      CountIfSnoc(claims, i, (c: Claim) => c.fraudRisk == "Low");
      CountIfSnoc(claims, i, (c: Claim) => IsRiskLevel(c.fraudRisk));
      var risk := claims[i].fraudRisk;
      if risk == "High" {
        counts := counts.(high := counts.high + 1);
      } else if risk == "Medium" {
        counts := counts.(medium := counts.medium + 1);
      } else if risk == "Low" {
        counts := counts.(low := counts.low + 1);
      }
    }
    assert claims[..|claims|] == claims;
  }

  // ---------------------------------------------------------------------------
  // Amount histogram
  // ---------------------------------------------------------------------------

  /** The histogram slot of an amount: 0 for `$0-1K`, 1 for `$1K-5K`, 2 for
      `$5K-10K`, 3 for `$10K+`. A NaN amount fails every `<` test and lands in 3. */
  function AmountBucket(amount: Number): (b: nat)
    ensures b < 4
  {
    if LessThan(amount, 1000.0) then 0
    else if LessThan(amount, 5000.0) then 1
    else if LessThan(amount, 10000.0) then 2
    else 3
  }

  /** The slots are the half-open ranges `< 1000`, `[1000, 5000)`, `[5000, 10000)`
      and `>= 10000` of a finite amount. */
  lemma AmountBucketRanges(v: real)
    ensures AmountBucket(Finite(v)) == 0 <==> v < 1000.0
    ensures AmountBucket(Finite(v)) == 1 <==> 1000.0 <= v < 5000.0
    ensures AmountBucket(Finite(v)) == 2 <==> 5000.0 <= v < 10000.0
    ensures AmountBucket(Finite(v)) == 3 <==> 10000.0 <= v
    ensures AmountBucket(NaN) == 3 && AmountBucket(Infinity) == 3 && AmountBucket(NegInfinity) == 0
  {
  }

  datatype AmountHistogram = AmountHistogram(upTo1K: nat, upTo5K: nat, upTo10K: nat, over10K: nat)

  /** The `forEach` tally of the amount-distribution chart. */
  method CountAmounts(claims: seq<Claim>) returns (h: AmountHistogram)
    ensures h.upTo1K == CountIf(claims, (c: Claim) => AmountBucket(c.amount) == 0)
    ensures h.upTo5K == CountIf(claims, (c: Claim) => AmountBucket(c.amount) == 1)
    ensures h.upTo10K == CountIf(claims, (c: Claim) => AmountBucket(c.amount) == 2)
    ensures h.over10K == CountIf(claims, (c: Claim) => AmountBucket(c.amount) == 3)
    ensures h.upTo1K + h.upTo5K + h.upTo10K + h.over10K == |claims|
  {
    h := AmountHistogram(0, 0, 0, 0);
    for i := 0 to |claims|
      invariant h.upTo1K == CountIf(claims[..i], (c: Claim) => AmountBucket(c.amount) == 0)
      invariant h.upTo5K == CountIf(claims[..i], (c: Claim) => AmountBucket(c.amount) == 1)
      invariant h.upTo10K == CountIf(claims[..i], (c: Claim) => AmountBucket(c.amount) == 2)
      invariant h.over10K == CountIf(claims[..i], (c: Claim) => AmountBucket(c.amount) == 3)
      invariant h.upTo1K + h.upTo5K + h.upTo10K + h.over10K == i
    {
      CountIfSnoc(claims, i, (c: Claim) => AmountBucket(c.amount) == 0);
      CountIfSnoc(claims, i, (c: Claim) => AmountBucket(c.amount) == 1);
      CountIfSnoc(claims, i, (c: Claim) => AmountBucket(c.amount) == 2);
      CountIfSnoc(claims, i, (c: Claim) => AmountBucket(c.amount) == 3);
      var amount := claims[i].amount;
      if LessThan(amount, 1000.0) {
        h := h.(upTo1K := h.upTo1K + 1);
      } else if LessThan(amount, 5000.0) {
        h := h.(upTo5K := h.upTo5K + 1);
      } else if LessThan(amount, 10000.0) {
        h := h.(upTo10K := h.upTo10K + 1);
      } else {
        h := h.(over10K := h.over10K + 1);
      }
    }
    assert claims[..|claims|] == claims;
  }

  // ---------------------------------------------------------------------------
  // Providers
  // ---------------------------------------------------------------------------

  /** One provider's tally: its claims and those that look fraudulent. */
  datatype ProviderStat = ProviderStat(providerId: string, total: nat, fraudulent: nat)

  function ClaimsOf(claims: seq<Claim>, id: string): nat {
    CountIf(claims, (c: Claim) => c.providerId == id)
  }

  function FlaggedOf(claims: seq<Claim>, id: string): nat {
    CountIf(claims, (c: Claim) => c.providerId == id && LooksFraudulent(c))
  }

  function SumTotals(stats: seq<ProviderStat>): nat {
    if |stats| == 0 then 0 else stats[0].total + SumTotals(stats[1..])
  }

  lemma {:induction false} SumTotalsAppend(stats: seq<ProviderStat>, e: ProviderStat)
    ensures SumTotals(stats + [e]) == SumTotals(stats) + e.total
  {
    if |stats| > 0 {
      assert (stats + [e])[1..] == stats[1..] + [e];
      SumTotalsAppend(stats[1..], e);
    }
  }

  lemma {:induction false} SumTotalsUpdate(stats: seq<ProviderStat>, k: nat, e: ProviderStat)
    requires k < |stats|
    ensures SumTotals(stats[k := e]) + stats[k].total == SumTotals(stats) + e.total
  {
    if k > 0 {
      assert stats[k := e][1..] == stats[1..][k - 1 := e];
      SumTotalsUpdate(stats[1..], k - 1, e);
    }
  }

  predicate DistinctProviders(stats: seq<ProviderStat>) {
    forall i, j :: 0 <= i < j < |stats| ==> stats[i].providerId != stats[j].providerId
  }

  predicate HasProvider(stats: seq<ProviderStat>, id: string) {
    exists k :: 0 <= k < |stats| && stats[k].providerId == id
  }

  /** The position of `id`'s tally, or `|stats|` when there is none yet. */
  function ProviderIndex(stats: seq<ProviderStat>, id: string): (k: nat)
    ensures k <= |stats|
    ensures k < |stats| ==> stats[k].providerId == id
    ensures k == |stats| ==> !HasProvider(stats, id)
  {
    if |stats| == 0 then 0
    else if stats[0].providerId == id then 0
    else 1 + ProviderIndex(stats[1..], id)
  }

  /** What the tally over the claims `seen` so far guarantees. */
  ghost predicate TallyInvariant(stats: seq<ProviderStat>, seen: seq<Claim>) {
    && DistinctProviders(stats)
    && (forall k :: 0 <= k < |stats| ==>
          stats[k].total == ClaimsOf(seen, stats[k].providerId)
          && stats[k].fraudulent == FlaggedOf(seen, stats[k].providerId))
    && (forall k :: 0 <= k < |stats| ==> 0 < stats[k].total && stats[k].fraudulent <= stats[k].total)
    && (forall m :: 0 <= m < |seen| ==> HasProvider(stats, seen[m].providerId))
    && SumTotals(stats) == |seen|
  }

  /** One `forEach` step: create the provider's entry if missing, then count the claim. */
  function Tally(stats: seq<ProviderStat>, c: Claim): seq<ProviderStat> {
    var flag := if LooksFraudulent(c) then 1 else 0;
    var k := ProviderIndex(stats, c.providerId);
    if k == |stats| then stats + [ProviderStat(c.providerId, 1, flag)]
    else stats[k := ProviderStat(c.providerId, stats[k].total + 1, stats[k].fraudulent + flag)]
  }

  lemma CountsAfter(seen: seq<Claim>, c: Claim, id: string)
    ensures ClaimsOf(seen + [c], id) == ClaimsOf(seen, id) + (if c.providerId == id then 1 else 0)
    ensures FlaggedOf(seen + [c], id)
            == FlaggedOf(seen, id) + (if c.providerId == id && LooksFraudulent(c) then 1 else 0)
  {
    CountIfAppend(seen, [c], (c: Claim) => c.providerId == id);
    CountIfAppend(seen, [c], (c: Claim) => c.providerId == id && LooksFraudulent(c));
  }

  lemma TallyNew(stats: seq<ProviderStat>, seen: seq<Claim>, c: Claim)
    requires TallyInvariant(stats, seen)
    requires !HasProvider(stats, c.providerId)
    ensures TallyInvariant(Tally(stats, c), seen + [c])
  {
    var id := c.providerId;
    var flag := if LooksFraudulent(c) then 1 else 0;
    var e := ProviderStat(id, 1, flag);
    var r := stats + [e];
    assert Tally(stats, c) == r;
    assert forall m :: 0 <= m < |seen| ==> seen[m].providerId != id;
    CountIfNone(seen, (c': Claim) => c'.providerId == id);
    CountIfNone(seen, (c': Claim) => c'.providerId == id && LooksFraudulent(c'));
    forall k | 0 <= k < |r|
      ensures r[k].total == ClaimsOf(seen + [c], r[k].providerId)
      ensures r[k].fraudulent == FlaggedOf(seen + [c], r[k].providerId)
    {
      CountsAfter(seen, c, r[k].providerId);
    }
    forall m | 0 <= m < |seen + [c]|
      ensures HasProvider(r, (seen + [c])[m].providerId)
    {
      if m < |seen| {
        var k :| 0 <= k < |stats| && stats[k].providerId == seen[m].providerId;
        assert r[k] == stats[k];
      } else {
        assert r[|stats|].providerId == id;
      }
    }
    SumTotalsAppend(stats, e);
  }

  lemma TallyExisting(stats: seq<ProviderStat>, seen: seq<Claim>, c: Claim, k: nat)
    requires TallyInvariant(stats, seen)
    requires k < |stats| && stats[k].providerId == c.providerId
    ensures TallyInvariant(Tally(stats, c), seen + [c])
  {
    var id := c.providerId;
    var flag := if LooksFraudulent(c) then 1 else 0;
    var e := ProviderStat(id, stats[k].total + 1, stats[k].fraudulent + flag);
    var r := stats[k := e];
    assert ProviderIndex(stats, id) == k;
    assert Tally(stats, c) == r;
    assert forall j :: 0 <= j < |r| ==> r[j].providerId == stats[j].providerId;
    forall j | 0 <= j < |r|
      ensures r[j].total == ClaimsOf(seen + [c], r[j].providerId)
      ensures r[j].fraudulent == FlaggedOf(seen + [c], r[j].providerId)
    {
      CountsAfter(seen, c, r[j].providerId);
    }
    forall m | 0 <= m < |seen + [c]|
      ensures HasProvider(r, (seen + [c])[m].providerId)
    {
      if m < |seen| {
        var j :| 0 <= j < |stats| && stats[j].providerId == seen[m].providerId;
        assert r[j].providerId == seen[m].providerId;
      } else {
        assert r[k].providerId == id;
      }
    }
    SumTotalsUpdate(stats, k, e);
  }

  /** The loop step of the tally over a prefix of the claims. */
  lemma TallyStep(stats: seq<ProviderStat>, claims: seq<Claim>, i: nat)
    requires i < |claims| && TallyInvariant(stats, claims[..i])
    ensures TallyInvariant(Tally(stats, claims[i]), claims[..i + 1])
  {
    var c := claims[i];
    assert claims[..i + 1] == claims[..i] + [c];
    var k := ProviderIndex(stats, c.providerId);
    if k == |stats| {
      TallyNew(stats, claims[..i], c);
    } else {
      TallyExisting(stats, claims[..i], c, k);
    }
  }

  /** The per-provider tally, one entry per provider in order of first appearance. */
  method ProviderStats(claims: seq<Claim>) returns (stats: seq<ProviderStat>)
    ensures DistinctProviders(stats)
    ensures forall k :: 0 <= k < |stats| ==>
              stats[k].total == ClaimsOf(claims, stats[k].providerId)
              && stats[k].fraudulent == FlaggedOf(claims, stats[k].providerId)
    ensures forall k :: 0 <= k < |stats| ==> 0 < stats[k].total && stats[k].fraudulent <= stats[k].total
    ensures forall i :: 0 <= i < |claims| ==> HasProvider(stats, claims[i].providerId)
    ensures SumTotals(stats) == |claims|
  {
    stats := [];
    for i := 0 to |claims|
      invariant TallyInvariant(stats, claims[..i])
    {
      TallyStep(stats, claims, i);
      stats := Tally(stats, claims[i]);
    }
    assert claims[..|claims|] == claims;
  }

  /** Tallies compared by their claim totals. */
  predicate ByTotal(a: ProviderStat, b: ProviderStat) {
    a.total <= b.total
  }

  lemma ByTotalIsTotalPreorder()
    ensures TotalPreorder(ByTotal)
  {
  }

  const TopCount := 5

  /** Every tally the top list leaves out has no more claims than any it keeps. */
  lemma TopDominates(stats: seq<ProviderStat>)
    ensures var sorted := SortDesc(stats, ByTotal);
            var top := Take(sorted, TopCount);
            forall e :: e in stats && e !in top ==> forall t :: t in top ==> e.total <= t.total
  {
    var sorted := SortDesc(stats, ByTotal);
    var top := Take(sorted, TopCount);
    ByTotalIsTotalPreorder();
    SortDescSorted(stats, ByTotal);
    forall e, t | e in stats && e !in top && t in top
      ensures e.total <= t.total
    {
      assert e in multiset(sorted);
      var j :| 0 <= j < |sorted| && sorted[j] == e;
      var i :| 0 <= i < |top| && top[i] == t;
      assert j >= |top|;
      assert ByTotal(sorted[j], sorted[i]);
    }
  }

  /** The five busiest providers, busiest first, ties in first-appearance order. */
  function TopProviders(stats: seq<ProviderStat>): (top: seq<ProviderStat>)
    ensures |top| == Min(TopCount, |stats|)
    ensures forall i, j :: 0 <= i < j < |top| ==> top[j].total <= top[i].total
    ensures multiset(top) <= multiset(stats)
    ensures forall e :: e in stats && e !in top ==> forall t :: t in top ==> e.total <= t.total
    ensures DistinctProviders(stats) ==> DistinctProviders(top)
    ensures |stats| <= TopCount ==> multiset(top) == multiset(stats)
  {
    var sorted := SortDesc(stats, ByTotal);
    TopSorted(stats);
    TopDominates(stats);
    TakeSubMultiset(sorted, TopCount);
    SubMultisetDistinct(Take(sorted, TopCount), stats);
    assert |stats| <= TopCount ==> Take(sorted, TopCount) == sorted;
    Take(sorted, TopCount)
  }

  lemma TopSorted(stats: seq<ProviderStat>)
    ensures var top := Take(SortDesc(stats, ByTotal), TopCount);
            forall i, j :: 0 <= i < j < |top| ==> top[j].total <= top[i].total
  {
    ByTotalIsTotalPreorder();
    SortDescSorted(stats, ByTotal);
  }

  /** Part of a list of tallies with distinct providers has distinct providers. */
  lemma SubMultisetDistinct(top: seq<ProviderStat>, stats: seq<ProviderStat>)
    requires multiset(top) <= multiset(stats)
    ensures DistinctProviders(stats) ==> DistinctProviders(top)
  {
    if DistinctProviders(stats) {
      SubMultisetNoDuplicates(top, stats);
      forall i, j | 0 <= i < j < |top|
        ensures top[i].providerId != top[j].providerId
      {
        assert top[i] in multiset(stats) && top[j] in multiset(stats);
        var a :| 0 <= a < |stats| && stats[a] == top[i];
        var b :| 0 <= b < |stats| && stats[b] == top[j];
        assert a != b;
      }
    }
  }

  /** The provider chart's data: at most five tallies, each exact for its
      provider, busiest first, and no left-out provider busier than a shown one. */
  method ProviderAnalysis(claims: seq<Claim>) returns (top: seq<ProviderStat>)
    ensures |top| <= TopCount
    ensures forall i, j :: 0 <= i < j < |top| ==> top[j].total <= top[i].total
    ensures forall k :: 0 <= k < |top| ==>
              top[k].total == ClaimsOf(claims, top[k].providerId)
              && top[k].fraudulent == FlaggedOf(claims, top[k].providerId)
              && top[k].fraudulent <= top[k].total
    ensures forall i :: 0 <= i < |claims| && !HasProvider(top, claims[i].providerId) ==>
              forall t :: t in top ==> ClaimsOf(claims, claims[i].providerId) <= t.total
    ensures DistinctProviders(top)
    ensures |top| < TopCount ==> forall i :: 0 <= i < |claims| ==> HasProvider(top, claims[i].providerId)
    ensures forall k :: 0 <= k < |top| ==> 0 < top[k].total
    ensures forall k :: 0 <= k < |top| ==>
              exists i :: 0 <= i < |claims| && claims[i].providerId == top[k].providerId
  {
    var stats := ProviderStats(claims);
    top := TopProviders(stats);
    TopFromStats(stats, top);
    forall k | 0 <= k < |top|
      ensures exists i :: 0 <= i < |claims| && claims[i].providerId == top[k].providerId
    {
      SomeClaimOf(claims, top[k].providerId);
    }
    LeftOutBounded(claims, stats, top);
    SmallTopCovers(claims, stats, top);
  }

  /** A provider with claims is the provider of one of them. */
  lemma {:induction false} SomeClaimOf(claims: seq<Claim>, id: string)
    requires 0 < ClaimsOf(claims, id)
    ensures exists i :: 0 <= i < |claims| && claims[i].providerId == id
  {
    if claims[0].providerId != id {
      SomeClaimOf(claims[1..], id);
      var i :| 0 <= i < |claims| - 1 && claims[1..][i].providerId == id;
      assert claims[i + 1].providerId == id;
    }
  }

  lemma TopFromStats(stats: seq<ProviderStat>, top: seq<ProviderStat>)
    requires multiset(top) <= multiset(stats)
    ensures forall k :: 0 <= k < |top| ==> top[k] in stats
  {
    forall k | 0 <= k < |top|
      ensures top[k] in stats
    {
      assert top[k] in multiset(top);
    }
  }

  /** A provider missing from the top list has no more claims than any shown one. */
  lemma LeftOutBounded(claims: seq<Claim>, stats: seq<ProviderStat>, top: seq<ProviderStat>)
    requires forall i :: 0 <= i < |claims| ==> HasProvider(stats, claims[i].providerId)
    requires forall k :: 0 <= k < |stats| ==> stats[k].total == ClaimsOf(claims, stats[k].providerId)
    requires forall e :: e in stats && e !in top ==> forall t :: t in top ==> e.total <= t.total
    ensures forall i :: 0 <= i < |claims| && !HasProvider(top, claims[i].providerId) ==>
              forall t :: t in top ==> ClaimsOf(claims, claims[i].providerId) <= t.total
  {
    forall i | 0 <= i < |claims| && !HasProvider(top, claims[i].providerId)
      ensures forall t :: t in top ==> ClaimsOf(claims, claims[i].providerId) <= t.total
    {
      var k :| 0 <= k < |stats| && stats[k].providerId == claims[i].providerId;
      assert stats[k] !in top;
    }
  }

  /** A top list shorter than five holds every provider. */
  lemma SmallTopCovers(claims: seq<Claim>, stats: seq<ProviderStat>, top: seq<ProviderStat>)
    requires forall i :: 0 <= i < |claims| ==> HasProvider(stats, claims[i].providerId)
    requires |top| == Min(TopCount, |stats|)
    requires |stats| <= TopCount ==> multiset(top) == multiset(stats)
    ensures |top| < TopCount ==> forall i :: 0 <= i < |claims| ==> HasProvider(top, claims[i].providerId)
  {
    if |top| < TopCount {
      forall i | 0 <= i < |claims|
        ensures HasProvider(top, claims[i].providerId)
      {
        var k :| 0 <= k < |stats| && stats[k].providerId == claims[i].providerId;
        assert stats[k] in multiset(top);
        var m :| 0 <= m < |top| && top[m] == stats[k];
      }
    }
  }
}

=== FILE: audit_csv.dfy ===
/** `exportToCSV`: the header line and one comma-separated line per claim,
    with the reason as a double-quoted field whose inner quotes are doubled. */
module AuditCsv {
  import opened Basics
  import opened Seqs
  import opened Text
  import opened Js
  import opened Claims

  /** The column titles, in export order. */
  const Headers: seq<string> :=
    ["Claim ID", "Patient ID", "Provider ID", "Amount", "Status", "Fraud Risk", "Prediction Score", "Reason"]

  const ColumnCount := |Headers|

  /** The first line of the export. */
  const HeaderLine: string := Join(Headers, ",")

  lemma HeaderLineSingle()
    ensures '\n' !in HeaderLine
  {
    assert '\n' !in Headers[0];
    assert '\n' !in Headers[1];
    assert '\n' !in Headers[2];
    assert '\n' !in Headers[3];
    assert '\n' !in Headers[4];
    assert '\n' !in Headers[5];
    assert '\n' !in Headers[6];
    assert '\n' !in Headers[7];
    JoinAvoids(Headers, ",", '\n');
  }

  /** `s.replace(/"/g, '""')`. */
  function EscapeQuotes(s: string): (r: string)
    ensures |r| >= |s|
  {
    if |s| == 0 then ""
    else if s[0] == '"' then "\"\"" + EscapeQuotes(s[1..])
    else [s[0]] + EscapeQuotes(s[1..])
  }

  /** The reason column: the text in double quotes, every inner quote doubled. */
  function QuoteField(s: string): (r: string)
    ensures |r| >= 2 && r[0] == '"' && r[|r| - 1] == '"'
  {
    "\"" + EscapeQuotes(s) + "\""
  }

  /** Collapses each `""` back to `"`; a lone quote is malformed. */
  function UnescapeQuotes(s: string): Option<string> {
    if |s| == 0 then Some("")
    else if s[0] == '"' then
      if |s| >= 2 && s[1] == '"' then
        match UnescapeQuotes(s[2..])
        case None => None
        case Some(rest) => Some("\"" + rest)
      else None
    else
      match UnescapeQuotes(s[1..])
      case None => None
      case Some(rest) => Some([s[0]] + rest)
  }

  /** Reads a quoted field back: strips the outer quotes and undoubles the inner ones. */
  function UnquoteField(field: string): Option<string> {
    if |field| >= 2 && field[0] == '"' && field[|field| - 1] == '"'
    then UnescapeQuotes(field[1..|field| - 1])
    else None
  }

  lemma {:induction false} UnescapeEscape(s: string)
    ensures UnescapeQuotes(EscapeQuotes(s)) == Some(s)
  {
    if |s| > 0 {
      UnescapeEscape(s[1..]);
      var e := EscapeQuotes(s);
      if s[0] == '"' {
        assert e[2..] == EscapeQuotes(s[1..]);
      } else {
        assert e[1..] == EscapeQuotes(s[1..]);
      }
      assert [s[0]] + s[1..] == s;
    }
  }

  /** Quoting loses nothing: reading the field back yields the original reason. */
  lemma UnquoteQuote(s: string)
    ensures UnquoteField(QuoteField(s)) == Some(s)
  {
    var q := QuoteField(s);
    assert q[1..|q| - 1] == EscapeQuotes(s);
    UnescapeEscape(s);
  }

  /** Quoting is injective: different reasons never export as the same field. */
  lemma QuoteFieldInjective(s: string, t: string)
    requires QuoteField(s) == QuoteField(t)
    ensures s == t
  {
    UnquoteQuote(s);
    UnquoteQuote(t);
  }

  /** The eight cells of a claim's line; numbers go through the page's number-to-text. */
  function RowFields(c: Claim, numberText: Number -> string): (fields: seq<string>)
    ensures |fields| == ColumnCount
    ensures fields[..ColumnCount - 1] == [c.claimId, c.patientId, c.providerId,
              numberText(c.amount), c.status, c.fraudRisk, numberText(c.predictionScore)]
    ensures UnquoteField(fields[|fields| - 1]) == Some(c.reason)
  {
    UnquoteQuote(c.reason);
    [c.claimId, c.patientId, c.providerId, numberText(c.amount), c.status, c.fraudRisk,
     numberText(c.predictionScore), QuoteField(c.reason)]
  }

  function CsvRow(c: Claim, numberText: Number -> string): string {
    Join(RowFields(c, numberText), ",")
  }

  function CsvRows(data: seq<Claim>, numberText: Number -> string): (rows: seq<string>)
    ensures |rows| == |data|
  {
    seq(|data|, i requires 0 <= i < |data| => CsvRow(data[i], numberText))
  }

  /** The exported file: the header line, then one line per claim, joined by newlines. */
  function ExportCsv(data: seq<Claim>, numberText: Number -> string): (csv: string)
    ensures IsPrefix(HeaderLine, csv)
    ensures |data| == 0 ==> csv == HeaderLine
  {
    var csv := Join([HeaderLine] + CsvRows(data, numberText), "\n");
    assert csv[..|HeaderLine|] == HeaderLine;
    csv
  }

  /** No cell of the claim's line holds a line break. */
  predicate SingleLine(c: Claim, numberText: Number -> string) {
    forall k :: 0 <= k < |RowFields(c, numberText)| ==> '\n' !in RowFields(c, numberText)[k]
  }

  /** When no cell contains a line break, the file splits back into exactly the
      header and one line per claim, in order. */
  lemma ExportCsvLines(data: seq<Claim>, numberText: Number -> string)
    requires forall i :: 0 <= i < |data| ==> SingleLine(data[i], numberText)
    ensures Split(ExportCsv(data, numberText), '\n') == [HeaderLine] + CsvRows(data, numberText)
  {
    HeaderLineSingle();
    RowsSingle(data, numberText);
    LinesAvoid(HeaderLine, CsvRows(data, numberText), '\n');
    assert "\n" == ['\n'];
    SplitJoin([HeaderLine] + CsvRows(data, numberText), '\n');
  }

  /** A header and rows that all avoid `c` make lines that all avoid `c`. */
  lemma LinesAvoid(header: string, rows: seq<string>, c: char)
    requires c !in header
    requires forall i :: 0 <= i < |rows| ==> c !in rows[i]
    ensures forall i :: 0 <= i < |rows| + 1 ==> c !in ([header] + rows)[i]
  {
    assert forall i :: 1 <= i < |rows| + 1 ==> ([header] + rows)[i] == rows[i - 1];
  }

  lemma RowsSingle(data: seq<Claim>, numberText: Number -> string)
    requires forall i :: 0 <= i < |data| ==> SingleLine(data[i], numberText)
    ensures forall i :: 0 <= i < |data| ==> '\n' !in CsvRows(data, numberText)[i]
  {
    forall i | 0 <= i < |data|
      ensures '\n' !in CsvRows(data, numberText)[i]
    {
      CsvRowSingle(data[i], numberText);
    }
  }

  lemma CsvRowSingle(c: Claim, numberText: Number -> string)
    requires SingleLine(c, numberText)
    ensures '\n' !in CsvRow(c, numberText)
  {
    JoinAvoids(RowFields(c, numberText), ",", '\n');
  }
}

=== FILE: audit_filter.dfy ===
/** The claim-table filter of the audit dashboard: a status drop-down, a risk
    drop-down and a free-text search box, all compared without regard to case. */
module AuditFilter {
  import opened Seqs
  import opened Text
  import opened Claims
  import opened AuditTable

  /** The three control values; a missing control reads as `""`. */
  datatype Filters = Filters(status: string, risk: string, search: string)

  /** An empty value or `all` (exactly) lets every claim through. */
  predicate IsWildcard(value: string) {
    value == "" || value == "all"
  }

  predicate StatusMatches(c: Claim, value: string) {
    IsWildcard(value) || Contains(Lower(c.status), Lower(value))
  }

  predicate RiskMatches(c: Claim, value: string) {
    IsWildcard(value) || Lower(c.fraudRisk) == Lower(value)
  }

  predicate SearchMatches(c: Claim, query: string) {
    || query == ""
    || Contains(Lower(c.claimId), Lower(query))
    || Contains(Lower(c.patientId), Lower(query))
    || Contains(Lower(c.providerId), Lower(query))
  }

  predicate Matches(c: Claim, f: Filters) {
    StatusMatches(c, f.status) && RiskMatches(c, f.risk) && SearchMatches(c, f.search)
  }

  /** The test the filter runs on each claim, as a value. */
  function Matching(f: Filters): Claim -> bool {
    c => Matches(c, f)
  }

  predicate Unconstrained(f: Filters) {
    IsWildcard(f.status) && IsWildcard(f.risk) && f.search == ""
  }

  /** `filterAndRender`'s filter over the loaded claims. */
  function FilterClaims(claims: seq<Claim>, f: Filters): (r: seq<Claim>)
    ensures IsSubsequence(r, claims)
    ensures forall i :: 0 <= i < |claims| ==> (claims[i] in r <==> Matches(claims[i], f))
    ensures forall i :: 0 <= i < |r| ==> Matches(r[i], f)
    ensures Unconstrained(f) ==> r == claims
    ensures |r| == CountIf(claims, Matching(f))
  {
    FilterIsSubsequence(claims, Matching(f));
    Filter(claims, Matching(f))
  }

  lemma LowerIdempotent(s: string)
    ensures Lower(Lower(s)) == Lower(s)
  {
  }

  /** The search box ignores the letter case of what is typed. */
  lemma SearchIgnoresCase(claims: seq<Claim>, f: Filters)
    ensures FilterClaims(claims, f.(search := Lower(f.search))) == FilterClaims(claims, f)
  {
    LowerIdempotent(f.search);
    var g := f.(search := Lower(f.search));
    FilterCongruent(claims, Matching(g), Matching(f));
  }

  /** A claim whose text fields differ only in letter case is kept or dropped alike. */
  lemma MatchesIgnoresClaimCase(c: Claim, f: Filters)
    ensures Matches(c.(status := Lower(c.status), fraudRisk := Lower(c.fraudRisk),
                       claimId := Lower(c.claimId), patientId := Lower(c.patientId),
                       providerId := Lower(c.providerId)), f)
        == Matches(c, f)
  {
    LowerIdempotent(c.status);
    LowerIdempotent(c.fraudRisk);
    LowerIdempotent(c.claimId);
    LowerIdempotent(c.patientId);
    LowerIdempotent(c.providerId);
  }

  /** The table after filtering: the no-data message exactly when nothing is
      loaded, the no-match message exactly when claims are loaded but none
      passes, and otherwise one row per passing claim, in order. */
  lemma FilteredTable(claims: seq<Claim>, f: Filters)
    ensures var t := RenderTable(claims, FilterClaims(claims, f));
            && (t == Message(NoDataMessage) <==> |claims| == 0)
            && (t == Message(NoMatchMessage) <==>
                  |claims| > 0 && forall i :: 0 <= i < |claims| ==> !Matches(claims[i], f))
            && (t.Rows? <==> exists i :: 0 <= i < |claims| && Matches(claims[i], f))
            && (t.Rows? ==> |t.rows| == CountIf(claims, Matching(f)))
  {
    var r := FilterClaims(claims, f);
    if forall i :: 0 <= i < |claims| ==> !Matches(claims[i], f) {
      CountIfNone(claims, Matching(f));
    } else {
      var i :| 0 <= i < |claims| && Matches(claims[i], f);
      assert claims[i] in r;
    }
  }
}

=== FILE: audit_review.dfy ===
/** The review modal's lookup and the local update `saveReview` makes. */
module AuditReview {
  import opened Basics
  import opened Claims

  /** Position of the first claim with this id (`Array.prototype.find`), or `|claims|`. */
  function FirstIndexOf(claims: seq<Claim>, id: string): (k: nat)
    ensures k <= |claims|
    ensures k < |claims| ==> claims[k].claimId == id
    ensures forall j :: 0 <= j < k ==> claims[j].claimId != id
  {
    if |claims| == 0 || claims[0].claimId == id then 0
    else 1 + FirstIndexOf(claims[1..], id)
  }

  /** `claimsData.find(c => c.claim_id === id)`, as the modal opens it. */
  function FindClaim(claims: seq<Claim>, id: string): (r: Option<Claim>)
    ensures r.None? <==> forall j :: 0 <= j < |claims| ==> claims[j].claimId != id
    ensures r.Some? ==> r.value in claims && r.value.claimId == id
    ensures r.Some? ==> exists k :: 0 <= k < |claims| && r.value == claims[k] && claims[k].claimId == id
                                  && forall j :: 0 <= j < k ==> claims[j].claimId != id
  {
    var k := FirstIndexOf(claims, id);
    if k < |claims| then Some(claims[k]) else None
  }

  /** `saveReview`: record the action and notes on the first claim with the id. */
  function SaveReview(claims: seq<Claim>, id: string, action: string, notes: string): (r: seq<Claim>)
    ensures |r| == |claims|
    ensures forall j :: 0 <= j < |claims| ==> r[j].claimId == claims[j].claimId
    ensures (forall j :: 0 <= j < |claims| ==> claims[j].claimId != id) ==> r == claims
    ensures forall k :: 0 <= k < |claims| && claims[k].claimId == id
                        && (forall j :: 0 <= j < k ==> claims[j].claimId != id) ==>
              && r[k] == claims[k].(reviewStatus := Some(action), reviewNotes := notes)
              && (forall j :: 0 <= j < |claims| && j != k ==> r[j] == claims[j])
  {
    var k := FirstIndexOf(claims, id);
    if k < |claims| then
      claims[k := claims[k].(reviewStatus := Some(action), reviewNotes := notes)]
    else claims
  }

  /** After saving, opening the same claim shows the review just saved. */
  lemma FindAfterSave(claims: seq<Claim>, id: string, action: string, notes: string)
    ensures var saved := SaveReview(claims, id, action, notes);
            FindClaim(saved, id).Some? ==>
              FindClaim(saved, id).value.reviewStatus == Some(action)
              && FindClaim(saved, id).value.reviewNotes == notes
    ensures FindClaim(SaveReview(claims, id, action, notes), id).Some? == FindClaim(claims, id).Some?
  {
    var k := FirstIndexOf(claims, id);
    var saved := SaveReview(claims, id, action, notes);
    if k < |claims| {
      assert forall j :: 0 <= j < |saved| ==> saved[j].claimId == claims[j].claimId;
      assert FirstIndexOf(saved, id) == k by {
        FirstIndexUnique(saved, id, k);
      }
    }
  }

  lemma FirstIndexUnique(claims: seq<Claim>, id: string, k: nat)
    requires k < |claims| && claims[k].claimId == id
    requires forall j :: 0 <= j < k ==> claims[j].claimId != id
    ensures FirstIndexOf(claims, id) == k
  {
    var m := FirstIndexOf(claims, id);
    assert m <= k;
  }

  /** Saving the same review twice is the same as saving it once. */
  lemma SaveReviewIdempotent(claims: seq<Claim>, id: string, action: string, notes: string)
    ensures SaveReview(SaveReview(claims, id, action, notes), id, action, notes)
         == SaveReview(claims, id, action, notes)
  {
    var k := FirstIndexOf(claims, id);
    var saved := SaveReview(claims, id, action, notes);
    if k < |claims| {
      assert forall j :: 0 <= j < |saved| ==> saved[j].claimId == claims[j].claimId;
      FirstIndexUnique(saved, id, k);
    }
  }

  /** Lists with the same ids in the same order find an id at the same position. */
  lemma {:induction false} FirstIndexSameIds(a: seq<Claim>, b: seq<Claim>, id: string)
    requires |a| == |b|
    requires forall j :: 0 <= j < |a| ==> a[j].claimId == b[j].claimId
    ensures FirstIndexOf(a, id) == FirstIndexOf(b, id)
  {
    if |a| > 0 && a[0].claimId != id {
      FirstIndexSameIds(a[1..], b[1..], id);
    }
  }

  /** Saving a review on one id leaves what every other id opens unchanged. */
  lemma SaveReviewOthers(claims: seq<Claim>, id: string, action: string, notes: string)
    ensures forall other :: other != id ==>
              FindClaim(SaveReview(claims, id, action, notes), other) == FindClaim(claims, other)
  {
    var saved := SaveReview(claims, id, action, notes);
    forall other | other != id
      ensures FindClaim(saved, other) == FindClaim(claims, other)
    {
      FirstIndexSameIds(saved, claims, other);
    }
  }

  /** The Save button acts only with a claim open and an action chosen. */
  predicate CanSubmit(current: Option<string>, action: Option<string>) {
    current.Some? && current.value != "" && action.Some? && action.value != ""
  }

  /** The Save button: nothing happens unless a claim is open and an action
      chosen; then the open claim shows the review and no other lookup changes. */
  function SubmitReview(claims: seq<Claim>, current: Option<string>, action: Option<string>, notes: string)
    : (r: seq<Claim>)
    ensures !CanSubmit(current, action) ==> r == claims
    ensures |r| == |claims|
    ensures forall j :: 0 <= j < |claims| ==> r[j].claimId == claims[j].claimId
    ensures CanSubmit(current, action) && FindClaim(claims, current.value).Some? ==>
              FindClaim(r, current.value)
              == Some(FindClaim(claims, current.value).value.(reviewStatus := action, reviewNotes := notes))
    ensures CanSubmit(current, action) ==>
              forall other :: other != current.value ==> FindClaim(r, other) == FindClaim(claims, other)
    ensures CanSubmit(current, action) ==> r == SaveReview(claims, current.value, action.value, notes)
  {
    if CanSubmit(current, action) then
      var id := current.value;
      FindAfterSave(claims, id, action.value, notes);
      SaveReviewOthers(claims, id, action.value, notes);
      FirstIndexSameIds(SaveReview(claims, id, action.value, notes), claims, id);
      SaveReview(claims, id, action.value, notes)
    else claims
  }
}

=== FILE: audit_table.dfy ===
/** The claims table of the audit dashboard: CSS classes for the status and
    risk badges, the truncated reason cell, and the empty-table message. */
module AuditTable {
  import opened Seqs
  import opened Text
  import opened Js
  import opened Claims

  /** The characters `[^a-z0-9-_]` does not strip. */
  predicate IsClassChar(c: char) {
    IsLowerAscii(c) || IsDigit(c) || c == '-' || c == '_'
  }

  /** Class characters other than the `-` that white space turns into. */
  predicate IsWordChar(c: char) {
    IsLowerAscii(c) || IsDigit(c) || c == '_'
  }

  /** The three passes of `sanitizeClass` on a string: lower-case, white-space
      runs to `-`, then every character outside `[a-z0-9-_]` removed. */
  function SanitizeText(s: string): (r: string)
    ensures forall i :: 0 <= i < |r| ==> IsClassChar(r[i])
  {
    Filter(CollapseSpaces(Lower(s)), IsClassChar)
  }

  /** `sanitizeClass(s)`: `String(s || "")` cleaned to a CSS class fragment. */
  function SanitizeClass(v: Value): (r: string)
    ensures forall i :: 0 <= i < |r| ==> IsClassChar(r[i])
    ensures Falsy(v) ==> r == ""
  {
    SanitizeText(if Falsy(v) then "" else ToText(v))
  }

  /** Class text is its own sanitisation. */
  lemma SanitizeTextFixes(s: string)
    requires forall i :: 0 <= i < |s| ==> IsClassChar(s[i])
    ensures SanitizeText(s) == s
  {
    assert Lower(s) == s;
    CollapseSpacesNoSpace(s);
  }

  /** Sanitising a class a second time changes nothing. */
  lemma SanitizeClassIdempotent(v: Value)
    ensures SanitizeClass(Str(SanitizeClass(v))) == SanitizeClass(v)
  {
    var r := SanitizeClass(v);
    if r != "" {
      SanitizeTextFixes(r);
    }
  }

  /** Leading white space contributes nothing to a filter that keeps no white space. */
  lemma {:induction false} TrimStartFilter(s: string, q: char -> bool)
    requires forall c :: q(c) ==> !IsSpace(c)
    ensures Filter(TrimStart(s), q) == Filter(s, q)
  {
    if |s| > 0 && IsSpace(s[0]) {
      TrimStartStep(s);
      TrimStartFilter(s[1..], q);
    }
  }

  /** Filtering for `q` sees through the white-space collapse when `q` keeps
      neither white space nor `-`. */
  lemma {:induction false} CollapseSpacesFilter(s: string, q: char -> bool)
    requires forall c :: q(c) ==> !IsSpace(c) && c != '-'
    ensures Filter(CollapseSpaces(s), q) == Filter(s, q)
    decreases |s|
  {
    if |s| > 0 {
      if IsSpace(s[0]) {
        var t := TrimStart(s);
        var x := CollapseSpaces(t);
        assert ("-" + x)[1..] == x;
        CollapseSpacesFilter(t, q);
        TrimStartFilter(s, q);
      } else {
        var x := CollapseSpaces(s[1..]);
        assert ([s[0]] + x)[1..] == x;
        CollapseSpacesFilter(s[1..], q);
      }
    }
  }

  /** Sanitising removes no letter, digit or `_` of the lower-cased text and
      reorders nothing. */
  lemma SanitizeTextKeepsWords(s: string)
    ensures Filter(SanitizeText(s), IsWordChar) == Filter(Lower(s), IsWordChar)
  {
    forall c | IsWordChar(c)
      ensures IsClassChar(c) && !IsSpace(c) && c != '-'
    {
      assert c !in SpaceChars;
    }
    FilterFilter(CollapseSpaces(Lower(s)), IsClassChar, IsWordChar);
    CollapseSpacesFilter(Lower(s), IsWordChar);
  }

  /** A white-space run between two words of the text becomes exactly one
      `-` in the class, and the words on either side are sanitised
      independently. */
  lemma SanitizeTextRun(a: string, w: string, b: string)
    requires |a| == 0 || !IsSpace(a[|a| - 1])
    requires |w| > 0 && forall k :: 0 <= k < |w| ==> IsSpace(w[k])
    requires |b| == 0 || !IsSpace(b[0])
    ensures SanitizeText(a + w + b) == SanitizeText(a) + "-" + SanitizeText(b)
  {
    var x, y := CollapseSpaces(Lower(a)), CollapseSpaces(Lower(b));
    LowerCollapseSpacesRun(a, w, b);
    FilterAppend(x + "-", y, IsClassChar);
    FilterAppend(x, "-", IsClassChar);
    assert Filter("-", IsClassChar) == "-";
  }

  const ReasonLimit := 100

  /** The reason cell: a reason longer than 100 characters is cut to its first
      100 followed by `...`; an empty one shows the default text. */
  function ReasonCell(reason: string): (r: string)
    ensures |r| <= ReasonLimit + 3
    ensures 0 < |reason| <= ReasonLimit ==> r == reason
    ensures |reason| > ReasonLimit ==> IsPrefix(reason[..ReasonLimit], r) && |r| == ReasonLimit + 3
    ensures |reason| > ReasonLimit ==> r[ReasonLimit..] == "..."
    ensures |reason| == 0 ==> r == DefaultReason
  {
    if |reason| > ReasonLimit then reason[..ReasonLimit] + "..."
    else if reason == "" then DefaultReason
    else reason
  }

  /** `x || "N/A"` for an id cell. */
  function OrNotAvailable(s: string): string {
    if s == "" then "N/A" else s
  }

  /** What one table row shows. */
  datatype RowView = RowView(
    claimId: string,
    patientId: string,
    providerId: string,
    statusClass: string,
    riskClass: string,
    reasonTitle: string,
    reasonText: string)

  function ClaimRow(c: Claim): RowView {
    RowView(
      OrNotAvailable(c.claimId), OrNotAvailable(c.patientId), OrNotAvailable(c.providerId),
      SanitizeClass(Str(c.status)), SanitizeClass(Str(c.fraudRisk)),
      if c.reason == "" then DefaultReason else c.reason,
      ReasonCell(c.reason))
  }

  /** The table body: a message row, or one row per filtered claim. */
  datatype TableView = Message(text: string) | Rows(rows: seq<RowView>)

  const NoDataMessage := "No claims data available"
  const NoMatchMessage := "No claims match your filters"

  function RenderTable(claims: seq<Claim>, filtered: seq<Claim>): (t: TableView)
    ensures t.Message? <==> |filtered| == 0
    ensures t.Message? ==> (t.text == NoDataMessage <==> |claims| == 0)
    ensures t.Rows? ==> |t.rows| == |filtered|
    ensures t.Rows? ==> forall i :: 0 <= i < |filtered| ==>
              t.rows[i] == ClaimRow(filtered[i])
  {
    if |filtered| == 0 then
      Message(if |claims| == 0 then NoDataMessage else NoMatchMessage)
    else
      Rows(seq(|filtered|, i requires 0 <= i < |filtered| => ClaimRow(filtered[i])))
  }
}

=== FILE: basics.dfy ===
/** Small shared wrappers: an optional value and a value-or-error. */
module Basics {

  /** A value that may be absent; stands for JavaScript's `null` / `undefined`
      where the dashboards apply `??` or optional chaining. */
  datatype Option<+T> = None | Some(value: T) {

    /** The value, or `default` when absent (JavaScript's `x ?? default`). */
    function GetOr(default: T): T {
      match this
      case Some(v) => v
      case None => default
    }
  }

  /** The outcome of an operation that the browser may abort with an exception. */
  datatype Result<+T, +E> = Ok(value: T) | Err(error: E)

  function Min(a: int, b: int): int {
    if a <= b then a else b
  }
}

=== FILE: claims.dfy ===
/** The audit dashboard's claim record: the server payload, the normalised
    record every other operation works on, and the initial newest-first order. */
module Claims {
  import opened Basics
  import opened Seqs
  import opened Text
  import opened Js

  /** A claim after normalisation. Fields follow the payload keys `claim_id`,
      `patient_id`, `provider_id`, `amount`, `status`, `fraud_risk`,
      `prediction_score`, `reason`, `review_notes` and `review_status`
      (`None` is `null`). */
  datatype Claim = Claim(
    claimId: string,
    patientId: string,
    providerId: string,
    amount: Number,
    status: string,
    fraudRisk: string,
    predictionScore: Number,
    reason: string,
    reviewNotes: string,
    reviewStatus: Option<string>)

  /** A claim as the server sends it: every key may be missing or `null`
      (`None`), and several fields have alternative keys. */
  datatype RawClaim = RawClaim(
    claimId: Option<string>,
    id: Option<string>,
    patientId: Option<string>,
    providerId: Option<string>,
    amount: Option<Number>,
    amountClaimed: Option<Number>,
    status: Option<string>,
    fraudRisk: Option<string>,
    risk: Option<string>,
    predictionScore: Option<Number>,
    llmMessage: Option<string>,
    reason: Option<string>,
    detectionReason: Option<string>,
    reviewNotes: Option<string>,
    reviewStatus: Option<string>)

  const DefaultReason := "No reason provided"

  /** The field defaulting applied to every fetched claim: each field takes the
      first key present, in the order `a ?? b ?? default`. */
  function Normalize(raw: RawClaim): Claim {
    Claim(
      claimId := raw.claimId.GetOr(raw.id.GetOr("")),
      patientId := raw.patientId.GetOr(""),
      providerId := raw.providerId.GetOr(""),
      amount := raw.amount.GetOr(raw.amountClaimed.GetOr(Finite(0.0))),
      status := raw.status.GetOr("Unknown"),
      fraudRisk := raw.fraudRisk.GetOr(raw.risk.GetOr("")),
      predictionScore := raw.predictionScore.GetOr(Finite(0.0)),
      reason := raw.llmMessage.GetOr(raw.reason.GetOr(raw.detectionReason.GetOr(DefaultReason))),
      reviewNotes := raw.reviewNotes.GetOr(""),
      reviewStatus := raw.reviewStatus)
  }

  /** The payload that carries a normalised claim under the primary keys only. */
  function Embed(c: Claim): RawClaim {
    RawClaim(
      claimId := Some(c.claimId), id := None,
      patientId := Some(c.patientId), providerId := Some(c.providerId),
      amount := Some(c.amount), amountClaimed := None,
      status := Some(c.status), fraudRisk := Some(c.fraudRisk), risk := None,
      predictionScore := Some(c.predictionScore),
      llmMessage := Some(c.reason), reason := None, detectionReason := None,
      reviewNotes := Some(c.reviewNotes), reviewStatus := c.reviewStatus)
  }

  /** Normalisation loses nothing a payload states under its primary keys. */
  lemma NormalizeEmbed(c: Claim)
    ensures Normalize(Embed(c)) == c
  {
  }

  const EmptyRawClaim := RawClaim(None, None, None, None, None, None, None, None,
                                  None, None, None, None, None, None, None)

  /** An empty payload yields the documented defaults. */
  lemma NormalizeDefaults()
    ensures Normalize(EmptyRawClaim)
         == Claim("", "", "", Finite(0.0), "Unknown", "", Finite(0.0), DefaultReason, "", None)
  {
  }

  /** A key that is present wins over every later key of its chain, and the
      alternative keys are consulted only when the keys before them are
      absent: `claim_id` before `id`, `amount` before `amount_claimed`,
      `fraud_risk` before `risk`, and `llm_message` before `reason` before
      `detection_reason`; a chain with no key present takes its default. */
  lemma NormalizeFallbacks(raw: RawClaim)
    ensures raw.claimId.Some? ==> Normalize(raw).claimId == raw.claimId.value
    ensures raw.amount.Some? ==> Normalize(raw).amount == raw.amount.value
    ensures raw.fraudRisk.Some? ==> Normalize(raw).fraudRisk == raw.fraudRisk.value
    ensures raw.llmMessage.Some? ==> Normalize(raw).reason == raw.llmMessage.value
    ensures raw.patientId.Some? ==> Normalize(raw).patientId == raw.patientId.value
    ensures raw.providerId.Some? ==> Normalize(raw).providerId == raw.providerId.value
    ensures raw.status.Some? ==> Normalize(raw).status == raw.status.value
    ensures raw.predictionScore.Some? ==> Normalize(raw).predictionScore == raw.predictionScore.value
    ensures raw.reviewNotes.Some? ==> Normalize(raw).reviewNotes == raw.reviewNotes.value
    ensures Normalize(raw).reviewStatus == raw.reviewStatus
    ensures raw.claimId.None? && raw.id.None? ==> Normalize(raw).claimId == ""
    ensures raw.amount.None? && raw.amountClaimed.None? ==> Normalize(raw).amount == Finite(0.0)
    ensures raw.fraudRisk.None? && raw.risk.None? ==> Normalize(raw).fraudRisk == ""
    ensures raw.llmMessage.None? && raw.reason.None? && raw.detectionReason.None?
            ==> Normalize(raw).reason == DefaultReason
    ensures raw.status.None? ==> Normalize(raw).status == "Unknown"
    ensures raw.claimId.None? && raw.id.Some? ==> Normalize(raw).claimId == raw.id.value
    ensures raw.amount.None? && raw.amountClaimed.Some? ==> Normalize(raw).amount == raw.amountClaimed.value
    ensures raw.fraudRisk.None? && raw.risk.Some? ==> Normalize(raw).fraudRisk == raw.risk.value
    ensures raw.llmMessage.None? && raw.reason.Some? ==> Normalize(raw).reason == raw.reason.value
    ensures raw.llmMessage.None? && raw.reason.None? && raw.detectionReason.Some?
            ==> Normalize(raw).reason == raw.detectionReason.value
  {
  }

  /** The dashboard's notion of a claim that looks fraudulent: rated `High`
      risk, or a status mentioning "fraud" in any letter case. */
  predicate LooksFraudulent(c: Claim) {
    c.fraudRisk == "High" || Contains(Lower(c.status), "fraud")
  }

  /** Code-point lexicographic order on strings. */
  predicate LexLe(a: string, b: string) {
    |a| == 0 || (|b| > 0 && (a[0] < b[0] || (a[0] == b[0] && LexLe(a[1..], b[1..]))))
  }

  lemma {:induction false} LexLeTotal(a: string, b: string)
    ensures LexLe(a, b) || LexLe(b, a)
  {
    if |a| > 0 && |b| > 0 && a[0] == b[0] {
      LexLeTotal(a[1..], b[1..]);
    }
  }

  lemma {:induction false} LexLeTransitive(a: string, b: string, c: string)
    requires LexLe(a, b) && LexLe(b, c)
    ensures LexLe(a, c)
  {
    if |a| > 0 && a[0] == b[0] && b[0] == c[0] {
      LexLeTransitive(a[1..], b[1..], c[1..]);
    }
  }

  /** Claims compared by id. */
  predicate ByClaimId(a: Claim, b: Claim) {
    LexLe(a.claimId, b.claimId)
  }

  lemma ByClaimIdIsTotalPreorder()
    ensures TotalPreorder(ByClaimId)
  {
    forall a: Claim, b: Claim
      ensures ByClaimId(a, b) || ByClaimId(b, a)
    {
      LexLeTotal(a.claimId, b.claimId);
    }
    forall a: Claim, b: Claim, c: Claim | ByClaimId(a, b) && ByClaimId(b, c)
      ensures ByClaimId(a, c)
    {
      LexLeTransitive(a.claimId, b.claimId, c.claimId);
    }
  }

  /** The order the table starts in: newest first by claim id, ties kept in
      arrival order. */
  function NewestFirst(claims: seq<Claim>): (r: seq<Claim>)
    ensures multiset(r) == multiset(claims)
    ensures forall i, j :: 0 <= i < j < |r| ==> LexLe(r[j].claimId, r[i].claimId)
  {
    ByClaimIdIsTotalPreorder();
    SortDescSorted(claims, ByClaimId);
    SortDesc(claims, ByClaimId)
  }
}

=== FILE: js.dfy ===
/** JavaScript values as the dashboards see them: numbers with their IEEE
    special values, truthiness, and `String(v)` for the scalar values. */
module Js {
  import opened Basics
  import opened Text

  /** A JavaScript number. Finite values are kept exact; the rounding of
      doubles is not modelled. */
  datatype Number = Finite(v: real) | Infinity | NegInfinity | NaN

  /** `n < bound` for a finite `bound`: false whenever `n` is NaN. */
  predicate LessThan(n: Number, bound: real) {
    match n
    case Finite(v) => v < bound
    case NegInfinity => true
    case _ => false
  }

  /** `Number.MAX_SAFE_INTEGER`. */
  const MaxSafeInteger: int := 0x1F_FFFF_FFFF_FFFF

  /** Integers a double holds exactly; all are printed without an exponent. */
  type SafeInteger = i: int | -MaxSafeInteger <= i <= MaxSafeInteger

  /** A scalar JSON / DOM value. Numbers are the integral ones. */
  datatype Value = Null | Undefined | Bool(b: bool) | Int(i: SafeInteger) | Str(s: string)

  /** The values `!v` is true of (NaN is not a `Value`, see `Number`). */
  predicate Falsy(v: Value) {
    match v
    case Null => true
    case Undefined => true
    case Bool(b) => !b
    case Int(i) => i == 0
    case Str(s) => s == ""
  }

  function DigitChar(d: nat): (c: char)
    requires d < 10
    ensures IsDigit(c)
  {
    ('0' as int + d) as char
  }

  function DigitValue(c: char): nat
    requires IsDigit(c)
  {
    c as int - '0' as int
  }

  /** Decimal digits of `n`, most significant first, no leading zero. */
  function NatText(n: nat): (r: string)
    ensures |r| >= 1
    ensures forall k :: 0 <= k < |r| ==> IsDigit(r[k])
    ensures |r| > 1 ==> r[0] != '0'
  {
    if n < 10 then [DigitChar(n)] else NatText(n / 10) + [DigitChar(n % 10)]
  }

  /** `String(i)` for an integer: an optional `-` and its decimal digits. */
  function IntegerText(i: int): (r: string)
    ensures |r| >= 1
    ensures (r[0] == '-') <==> i < 0
  {
    if i < 0 then "-" + NatText(-i) else NatText(i)
  }

  /** Reads back a non-empty string of decimal digits. */
  function ParseNat(s: string): Option<nat> {
    if |s| == 0 || !IsDigit(s[|s| - 1]) then None
    else if |s| == 1 then Some(DigitValue(s[0]))
    else
      match ParseNat(s[..|s| - 1])
      case None => None
      case Some(n) => Some(n * 10 + DigitValue(s[|s| - 1]))
  }

  /** Reads back an optionally negative decimal integer. */
  function ParseInteger(s: string): Option<int> {
    if |s| > 0 && s[0] == '-' then
      match ParseNat(s[1..])
      case None => None
      case Some(n) => Some(0 - (n as int))
    else
      match ParseNat(s)
      case None => None
      case Some(n) => Some(n)
  }

  lemma {:induction false} NatTextRoundTrip(n: nat)
    ensures ParseNat(NatText(n)) == Some(n)
  {
    if n >= 10 {
      NatTextRoundTrip(n / 10);
      var s := NatText(n);
      assert s[..|s| - 1] == NatText(n / 10);
    }
  }

  lemma ParseIntegerOfDigits(digits: string, n: nat)
    requires ParseNat(digits) == Some(n) && digits[0] != '-'
    ensures ParseInteger(digits) == Some(n)
  {
  }

  lemma ParseIntegerOfMinus(digits: string, n: nat)
    requires ParseNat(digits) == Some(n)
    ensures ParseInteger("-" + digits) == Some(0 - n)
  {
    var t := "-" + digits;
    assert t[0] == '-' && t[1..] == digits;
  }

  /** The decimal text of an integer determines it. */
  lemma IntegerTextRoundTrip(i: int)
    ensures ParseInteger(IntegerText(i)) == Some(i)
  {
    if i < 0 {
      NatTextRoundTrip(-i);
      ParseIntegerOfMinus(NatText(-i), -i);
    } else {
      NatTextRoundTrip(i);
      ParseIntegerOfDigits(NatText(i), i);
    }
  }

  /** `String(v)`. */
  function ToText(v: Value): string {
    match v
    case Null => "null"
    case Undefined => "undefined"
    case Bool(b) => if b then "true" else "false"
    case Int(i) => IntegerText(i)
    case Str(s) => s
  }
}

=== FILE: provider_page.dfy ===
/** The provider portal's claim list and its two drop-down filters, which
    compare the selected value with the claim's field exactly. */
module ProviderPage {
  import opened Seqs

  /** A claim card's data (`id`, `memberId`, `memberName`, `type`, `amount`,
      `status`, `dateSubmitted`, `fraudRisk`, `fraudProb`). */
  datatype PortalClaim = PortalClaim(
    id: string,
    memberId: int,
    memberName: string,
    claimType: string,
    amount: int,
    status: string,
    dateSubmitted: string,
    fraudRisk: string,
    fraudProb: real)

  /** An empty selection lets every claim through; otherwise the status must be
      the same string, letter case included. */
  predicate StatusPasses(c: PortalClaim, statusValue: string) {
    statusValue == "" || c.status == statusValue
  }

  predicate TypePasses(c: PortalClaim, typeValue: string) {
    typeValue == "" || c.claimType == typeValue
  }

  predicate Passes(c: PortalClaim, statusValue: string, typeValue: string) {
    StatusPasses(c, statusValue) && TypePasses(c, typeValue)
  }

  /** The test `applyFilters` runs on each claim, as a value. */
  function Passing(statusValue: string, typeValue: string): PortalClaim -> bool {
    c => Passes(c, statusValue, typeValue)
  }

  /** `applyFilters`: the claims passing both selections, in their listed order. */
  function ApplyFilters(claims: seq<PortalClaim>, statusValue: string, typeValue: string)
    : (r: seq<PortalClaim>)
    ensures IsSubsequence(r, claims)
    ensures forall i :: 0 <= i < |claims| ==>
              (claims[i] in r <==>
                 (statusValue == "" || claims[i].status == statusValue)
                 && (typeValue == "" || claims[i].claimType == typeValue))
    ensures forall i :: 0 <= i < |r| ==>
              (statusValue == "" || r[i].status == statusValue)
              && (typeValue == "" || r[i].claimType == typeValue)
    ensures statusValue == "" && typeValue == "" ==> r == claims
    ensures |r| == CountIf(claims, Passing(statusValue, typeValue))
  {
    FilterIsSubsequence(claims, Passing(statusValue, typeValue));
    Filter(claims, Passing(statusValue, typeValue))
  }

  /** The two selections act independently: filtering by status and then by
      type is filtering by both at once. */
  lemma ApplyFiltersSeparately(claims: seq<PortalClaim>, statusValue: string, typeValue: string)
    ensures ApplyFilters(ApplyFilters(claims, statusValue, ""), "", typeValue)
         == ApplyFilters(claims, statusValue, typeValue)
  {
    var p := Passing(statusValue, "");
    var q := Passing("", typeValue);
    var both := Passing(statusValue, typeValue);
    var first := ApplyFilters(claims, statusValue, "");
    assert first == Filter(claims, p);
    assert ApplyFilters(first, "", typeValue) == Filter(first, q);
    assert ApplyFilters(claims, statusValue, typeValue) == Filter(claims, both);
    FilterConjunction(claims, p, q, both);
  }

  /** The portal's built-in claim. */
  const SampleClaims: seq<PortalClaim> :=
    [PortalClaim("CLM001", 1, "John Doe", "inpatient", 15000, "approved", "2024-01-15", "LOW", 0.0234)]

  /** Matching is case-sensitive: `Approved` does not select an `approved` claim. */
  lemma SampleFilters()
    ensures ApplyFilters(SampleClaims, "approved", "inpatient") == SampleClaims
    ensures ApplyFilters(SampleClaims, "Approved", "") == []
    ensures ApplyFilters(SampleClaims, "", "outpatient") == []
  {
    assert !Passes(SampleClaims[0], "Approved", "");
    assert !Passes(SampleClaims[0], "", "outpatient");
  }
}

=== FILE: seqs.dfy ===
/** Sequence vocabulary shared by the dashboards: counting, `Array.prototype.filter`,
    `slice(0, n)`, `join`/`split`, and the stable sort behind `Array.prototype.sort`. */
module Seqs {

  /** Number of elements of `s` satisfying `p`. */
  function CountIf<T>(s: seq<T>, p: T -> bool): (n: nat)
    ensures n <= |s|
  {
    if |s| == 0 then 0 else (if p(s[0]) then 1 else 0) + CountIf(s[1..], p)
  }

  lemma {:induction false} CountIfAppend<T>(a: seq<T>, b: seq<T>, p: T -> bool)
    ensures CountIf(a + b, p) == CountIf(a, p) + CountIf(b, p)
  {
    if |a| == 0 {
      assert a + b == b;
    } else {
      assert (a + b)[1..] == a[1..] + b;
      CountIfAppend(a[1..], b, p);
    }
  }

  /** Counting one more element, as a `forEach` loop does. */
  lemma CountIfSnoc<T>(s: seq<T>, i: nat, p: T -> bool)
    requires i < |s|
    ensures CountIf(s[..i + 1], p) == CountIf(s[..i], p) + (if p(s[i]) then 1 else 0)
  {
    assert s[..i + 1] == s[..i] + [s[i]];
    CountIfAppend(s[..i], [s[i]], p);
  }

  /** Counting a union of two disjoint conditions adds their counts. */
  lemma {:induction false} CountIfDisjointUnion<T>(s: seq<T>, p: T -> bool, q: T -> bool, either: T -> bool)
    requires forall i :: 0 <= i < |s| ==> (either(s[i]) <==> p(s[i]) || q(s[i]))
    requires forall i :: 0 <= i < |s| ==> !(p(s[i]) && q(s[i]))
    ensures CountIf(s, either) == CountIf(s, p) + CountIf(s, q)
  {
    if |s| > 0 {
      assert forall i :: 0 <= i < |s| - 1 ==> s[1..][i] == s[i + 1];
      CountIfDisjointUnion(s[1..], p, q, either);
    }
  }

  /** A weaker predicate is satisfied at least as often. */
  lemma {:induction false} CountIfMonotone<T>(s: seq<T>, p: T -> bool, q: T -> bool)
    requires forall x :: x in s && p(x) ==> q(x)
    ensures CountIf(s, p) <= CountIf(s, q)
  {
    if |s| > 0 {
      CountIfMonotone(s[1..], p, q);
    }
  }

  lemma {:induction false} CountIfNone<T>(s: seq<T>, p: T -> bool)
    requires forall i :: 0 <= i < |s| ==> !p(s[i])
    ensures CountIf(s, p) == 0
  {
    if |s| > 0 {
      CountIfNone(s[1..], p);
    }
  }

  /** Predicates that agree on every element count alike. */
  lemma {:induction false} CountIfCongruent<T>(s: seq<T>, p: T -> bool, q: T -> bool)
    requires forall i :: 0 <= i < |s| ==> p(s[i]) == q(s[i])
    ensures CountIf(s, p) == CountIf(s, q)
  {
    if |s| > 0 {
      CountIfCongruent(s[1..], p, q);
    }
  }

  /** `a` can be obtained from `b` by deleting elements, without reordering. */
  predicate IsSubsequence<T(==)>(a: seq<T>, b: seq<T>)
    decreases |b|
  {
    |a| == 0 ||
    (|b| > 0 && ((a[0] == b[0] && IsSubsequence(a[1..], b[1..])) || IsSubsequence(a, b[1..])))
  }

  /** `Array.prototype.filter`: the elements satisfying `p`, in their original order. */
  function Filter<T>(s: seq<T>, p: T -> bool): (r: seq<T>)
    ensures |r| == CountIf(s, p)
    ensures forall i :: 0 <= i < |r| ==> r[i] in s && p(r[i])
    ensures forall i :: 0 <= i < |s| && p(s[i]) ==> s[i] in r
    ensures (forall i :: 0 <= i < |s| ==> p(s[i])) ==> r == s
  {
    if |s| == 0 then []
    else if p(s[0]) then [s[0]] + Filter(s[1..], p)
    else Filter(s[1..], p)
  }

  lemma {:induction false} FilterIsSubsequence<T>(s: seq<T>, p: T -> bool)
    ensures IsSubsequence(Filter(s, p), s)
  {
    if |s| > 0 {
      FilterIsSubsequence(s[1..], p);
      var r := Filter(s, p);
      if p(s[0]) {
        assert r[0] == s[0] && r[1..] == Filter(s[1..], p);
      } else {
        assert r == Filter(s[1..], p);
      }
    }
  }

  lemma {:induction false} FilterAppend<T>(a: seq<T>, b: seq<T>, p: T -> bool)
    ensures Filter(a + b, p) == Filter(a, p) + Filter(b, p)
  {
    if |a| == 0 {
      assert a + b == b;
    } else {
      assert (a + b)[1..] == a[1..] + b;
      FilterAppend(a[1..], b, p);
    }
  }

  /** Filtering by a stronger predicate after a weaker one is filtering once. */
  lemma {:induction false} FilterFilter<T>(s: seq<T>, p: T -> bool, q: T -> bool)
    requires forall x :: q(x) ==> p(x)
    ensures Filter(Filter(s, p), q) == Filter(s, q)
  {
    if |s| > 0 {
      FilterFilter(s[1..], p, q);
    }
  }

  /** Filters by predicates that agree on every element give the same result. */
  lemma {:induction false} FilterCongruent<T>(s: seq<T>, p: T -> bool, q: T -> bool)
    requires forall i :: 0 <= i < |s| ==> p(s[i]) == q(s[i])
    ensures Filter(s, p) == Filter(s, q)
  {
    if |s| > 0 {
      FilterCongruent(s[1..], p, q);
    }
  }

  /** Two filters in a row keep what satisfies both. */
  lemma {:induction false} FilterConjunction<T>(s: seq<T>, p: T -> bool, q: T -> bool, both: T -> bool)
    requires forall i :: 0 <= i < |s| ==> both(s[i]) == (p(s[i]) && q(s[i]))
    ensures Filter(Filter(s, p), q) == Filter(s, both)
  {
    if |s| > 0 {
      FilterConjunction(s[1..], p, q, both);
    }
  }

  /** Dropping trailing elements of a subsequence leaves a subsequence. */
  lemma {:induction false} SubsequenceTake<T>(a: seq<T>, b: seq<T>, n: nat)
    requires IsSubsequence(a, b)
    ensures IsSubsequence(Take(a, n), b)
    decreases |b|
  {
    var t := Take(a, n);
    if |t| > 0 {
      if a[0] == b[0] && IsSubsequence(a[1..], b[1..]) {
        SubsequenceTake(a[1..], b[1..], n - 1);
        assert Take(a[1..], n - 1) == t[1..];
      } else {
        SubsequenceTake(a, b[1..], n);
      }
    }
  }

  /** `a` is a prefix of `b`. */
  predicate IsPrefix<T(==)>(a: seq<T>, b: seq<T>) {
    |a| <= |b| && b[..|a|] == a
  }

  /** `s.slice(0, n)`. */
  function Take<T>(s: seq<T>, n: nat): (r: seq<T>)
    ensures |r| == if n <= |s| then n else |s|
    ensures forall i :: 0 <= i < |r| ==> r[i] == s[i]
  {
    if n <= |s| then s[..n] else s
  }

  lemma TakeSubMultiset<T>(s: seq<T>, n: nat)
    ensures multiset(Take(s, n)) <= multiset(s)
  {
    var t := Take(s, n);
    assert s == t + s[|t|..];
    assert multiset(s) == multiset(t) + multiset(s[|t|..]);
  }

  /** No value occurs twice. */
  predicate NoDuplicates<T(==)>(s: seq<T>) {
    forall i, j :: 0 <= i < j < |s| ==> s[i] != s[j]
  }

  lemma {:induction false} NoDuplicatesCount<T>(s: seq<T>, x: T)
    requires NoDuplicates(s)
    ensures multiset(s)[x] <= 1
  {
    if |s| > 0 {
      var rest := s[1..];
      assert s == [s[0]] + rest;
      assert NoDuplicates(rest) by {
        assert forall i :: 0 <= i < |rest| ==> rest[i] == s[i + 1];
      }
      NoDuplicatesCount(rest, x);
      assert s[0] !in rest by {
        assert forall i :: 0 <= i < |rest| ==> rest[i] == s[i + 1];
      }
    }
  }

  /** A value counted at most once cannot sit at two positions. */
  lemma SingleCopyDistinct<T>(t: seq<T>, i: nat, j: nat)
    requires i < j < |t|
    requires multiset(t)[t[i]] <= 1
    ensures t[i] != t[j]
  {
    var front, back := t[..j], t[j..];
    assert t == front + back;
    assert t[i] in front && t[j] in back;
    assert multiset(t)[t[i]] == multiset(front)[t[i]] + multiset(back)[t[i]];
    assert multiset(back)[t[j]] >= 1;
  }

  /** Part of a duplicate-free sequence is duplicate free. */
  lemma SubMultisetNoDuplicates<T>(t: seq<T>, s: seq<T>)
    requires multiset(t) <= multiset(s)
    requires NoDuplicates(s)
    ensures NoDuplicates(t)
  {
    forall i, j | 0 <= i < j < |t|
      ensures t[i] != t[j]
    {
      NoDuplicatesCount(s, t[i]);
      SingleCopyDistinct(t, i, j);
    }
  }

  /** `parts.join(sep)`. */
  function Join(parts: seq<string>, sep: string): string {
    if |parts| == 0 then ""
    else if |parts| == 1 then parts[0]
    else parts[0] + sep + Join(parts[1..], sep)
  }

  /** The joined text starts with the first part. */
  lemma JoinStartsWithFirst(parts: seq<string>, sep: string)
    requires |parts| > 0
    ensures IsPrefix(parts[0], Join(parts, sep))
  {
    if |parts| > 1 {
      assert Join(parts, sep)[..|parts[0]|] == parts[0];
    }
  }

  /** A character in neither the parts nor the separator is not in the joined text. */
  lemma {:induction false} JoinAvoids(parts: seq<string>, sep: string, c: char)
    requires c !in sep
    requires forall i :: 0 <= i < |parts| ==> c !in parts[i]
    ensures c !in Join(parts, sep)
  {
    if |parts| > 1 {
      JoinAvoids(parts[1..], sep, c);
    }
  }

  /** `s.split(c)` for a one-character separator. */
  function Split(s: string, c: char): (r: seq<string>)
    ensures |r| >= 1
  {
    if |s| == 0 then [""]
    else
      var rest := Split(s[1..], c);
      if s[0] == c then [""] + rest else [[s[0]] + rest[0]] + rest[1..]
  }

  lemma {:induction false} SplitNoSeparator(s: string, c: char)
    requires c !in s
    ensures Split(s, c) == [s]
  {
    if |s| > 0 {
      SplitNoSeparator(s[1..], c);
      assert [s[0]] + s[1..] == s;
    }
  }

  lemma {:induction false} SplitAtSeparator(p: string, c: char, q: string)
    requires c !in p
    ensures Split(p + [c] + q, c) == [p] + Split(q, c)
  {
    if |p| == 0 {
      assert p + [c] + q == [c] + q;
      assert ([c] + q)[1..] == q;
    } else {
      assert (p + [c] + q)[1..] == p[1..] + [c] + q;
      SplitAtSeparator(p[1..], c, q);
      assert [p[0]] + p[1..] == p;
    }
  }

  /** Splitting undoes joining when no part contains the separator. */
  lemma {:induction false} SplitJoin(parts: seq<string>, c: char)
    requires |parts| >= 1
    requires forall i :: 0 <= i < |parts| ==> c !in parts[i]
    ensures Split(Join(parts, [c]), c) == parts
  {
    if |parts| == 1 {
      SplitNoSeparator(parts[0], c);
    } else {
      SplitJoin(parts[1..], c);
      SplitAtSeparator(parts[0], c, Join(parts[1..], [c]));
    }
  }

  /** A comparison usable for sorting: total and transitive. */
  ghost predicate TotalPreorder<T(!new)>(le: (T, T) -> bool) {
    && (forall a, b :: le(a, b) || le(b, a))
    && (forall a, b, c :: le(a, b) && le(b, c) ==> le(a, c))
  }

  /** Non-increasing with respect to `le`. */
  predicate SortedDesc<T>(s: seq<T>, le: (T, T) -> bool) {
    forall i, j :: 0 <= i < j < |s| ==> le(s[j], s[i])
  }

  /** Inserts `x` before the first element not greater than it: `x` stays ahead
      of the elements it ties with, which keeps the sort stable. */
  function Insert<T>(x: T, ys: seq<T>, le: (T, T) -> bool): (r: seq<T>)
    ensures |r| == |ys| + 1
    ensures multiset(r) == multiset(ys) + multiset{x}
  {
    if |ys| == 0 || le(ys[0], x) then [x] + ys
    else
      assert ys == [ys[0]] + ys[1..];
      [ys[0]] + Insert(x, ys[1..], le)
  }

  /** A stable sort into non-increasing order, as `sort((a, b) => key(b) - key(a))` does. */
  function SortDesc<T>(s: seq<T>, le: (T, T) -> bool): (r: seq<T>)
    ensures |r| == |s|
    ensures multiset(r) == multiset(s)
  {
    if |s| == 0 then []
    else
      assert s == [s[0]] + s[1..];
      Insert(s[0], SortDesc(s[1..], le), le)
  }

  lemma {:induction false} InsertSorted<T(!new)>(x: T, ys: seq<T>, le: (T, T) -> bool)
    requires TotalPreorder(le)
    requires SortedDesc(ys, le)
    ensures SortedDesc(Insert(x, ys, le), le)
  {
    if |ys| > 0 && !le(ys[0], x) {
      var tail := Insert(x, ys[1..], le);
      InsertSorted(x, ys[1..], le);
      forall e | e in tail
        ensures le(e, ys[0])
      {
        assert e in multiset(tail);
        if e != x {
          assert e in multiset(ys[1..]);
          assert e in ys[1..];
        }
      }
    }
  }

  lemma {:induction false} SortDescSorted<T(!new)>(s: seq<T>, le: (T, T) -> bool)
    requires TotalPreorder(le)
    ensures SortedDesc(SortDesc(s, le), le)
  {
    if |s| > 0 {
      SortDescSorted(s[1..], le);
      InsertSorted(s[0], SortDesc(s[1..], le), le);
    }
  }
}

=== FILE: text.dfy ===
/** Character-level string operations the dashboards borrow from JavaScript:
    the `\s` class, `toLowerCase` / `toUpperCase`, `includes`, `trim`, and
    `replace(/\s+/g, "-")`. */
module Text {
  import opened Seqs

  /** The characters JavaScript's `\s` matches: the WhiteSpace and
      LineTerminator code points of ECMA-262 (`trim` strips the same set). */
  predicate IsSpace(c: char) {
    c in SpaceChars || ('\U{2000}' <= c <= '\U{200A}')
  }

  /** The `\s` code points outside the U+2000..U+200A block. */
  const SpaceChars: set<char> := {
    '\t', '\n', '\U{B}', '\U{C}', '\r', ' ', '\U{A0}', '\U{1680}',
    '\U{2028}', '\U{2029}', '\U{202F}', '\U{205F}', '\U{3000}', '\U{FEFF}'
  }

  predicate IsUpperAscii(c: char) {
    'A' <= c <= 'Z'
  }

  predicate IsLowerAscii(c: char) {
    'a' <= c <= 'z'
  }

  predicate IsDigit(c: char) {
    '0' <= c <= '9'
  }

  function LowerChar(c: char): char {
    if IsUpperAscii(c) then (c as int + 32) as char else c
  }

  function UpperChar(c: char): char {
    if IsLowerAscii(c) then (c as int - 32) as char else c
  }

  /** `s.toLowerCase()` on the ASCII letters. */
  function Lower(s: string): (r: string)
    ensures |r| == |s|
    ensures forall i :: 0 <= i < |s| ==> r[i] == LowerChar(s[i])
  {
    seq(|s|, i requires 0 <= i < |s| => LowerChar(s[i]))
  }

  /** `s.toUpperCase()` on the ASCII letters. */
  function Upper(s: string): (r: string)
    ensures |r| == |s|
    ensures forall i :: 0 <= i < |s| ==> r[i] == UpperChar(s[i])
  {
    seq(|s|, i requires 0 <= i < |s| => UpperChar(s[i]))
  }

  /** Lower-casing never changes whether a character is white space. */
  lemma LowerCharKeepsSpace(c: char)
    ensures IsSpace(LowerChar(c)) <==> IsSpace(c)
  {
  }

  /** `s.includes(t)`, searched from the left. */
  predicate Contains(s: string, t: string)
    decreases |s|
  {
    IsPrefix(t, s) || (|s| > 0 && Contains(s[1..], t))
  }

  /** `t` occurs in `s` starting at position `i`. */
  predicate OccursAt(s: string, t: string, i: int) {
    0 <= i && i + |t| <= |s| && s[i..i + |t|] == t
  }

  /** The left-to-right search agrees with the positional definition of a substring. */
  lemma {:induction false} ContainsIffOccurs(s: string, t: string)
    ensures Contains(s, t) <==> exists i :: OccursAt(s, t, i)
  {
    if IsPrefix(t, s) {
      assert OccursAt(s, t, 0);
    } else if |s| > 0 {
      ContainsIffOccurs(s[1..], t);
      if exists i :: OccursAt(s[1..], t, i) {
        var i :| OccursAt(s[1..], t, i);
        assert s[i + 1..i + 1 + |t|] == s[1..][i..i + |t|];
        assert OccursAt(s, t, i + 1);
      }
      if exists i :: OccursAt(s, t, i) {
        var i :| OccursAt(s, t, i);
        assert i != 0;
        assert s[1..][i - 1..i - 1 + |t|] == s[i..i + |t|];
        assert OccursAt(s[1..], t, i - 1);
      }
    }
  }

  /** The first index at or after `i` that holds no white space, or `|s|`. */
  function SkipSpaces(s: string, i: nat): (n: nat)
    requires i <= |s|
    ensures i <= n <= |s|
    ensures forall k :: i <= k < n ==> IsSpace(s[k])
    ensures n == |s| || !IsSpace(s[n])
    decreases |s| - i
  {
    if i < |s| && IsSpace(s[i]) then SkipSpaces(s, i + 1) else i
  }

  /** The last index at or before `j` that follows no white space, or 0. */
  function SkipSpacesBack(s: string, j: nat): (n: nat)
    requires j <= |s|
    ensures n <= j
    ensures forall k :: n <= k < j ==> IsSpace(s[k])
    ensures n == 0 || !IsSpace(s[n - 1])
  {
    if j > 0 && IsSpace(s[j - 1]) then SkipSpacesBack(s, j - 1) else j
  }

  /** The number of white-space characters `trimStart` drops. */
  function LeadingSpaces(s: string): (n: nat)
    ensures n <= |s|
    ensures forall k :: 0 <= k < n ==> IsSpace(s[k])
    ensures n == |s| || !IsSpace(s[n])
  {
    SkipSpaces(s, 0)
  }

  /** The leading white space ends exactly at the first non-space character. */
  lemma LeadingSpacesAt(s: string, n: nat)
    requires n <= |s|
    requires forall k :: 0 <= k < n ==> IsSpace(s[k])
    requires n == |s| || !IsSpace(s[n])
    ensures LeadingSpaces(s) == n
  {
  }

  /** Drops the leading white space: `s.trimStart()`. */
  function TrimStart(s: string): (r: string)
    ensures |r| <= |s| && r == s[|s| - |r|..]
    ensures |r| == 0 || !IsSpace(r[0])
    ensures forall i :: 0 <= i < |s| - |r| ==> IsSpace(s[i])
    ensures |s| > 0 && IsSpace(s[0]) ==> |r| < |s|
  {
    s[LeadingSpaces(s)..]
  }

  /** `s.trim()`: the white space at both ends removed, nothing else. The
      result is the slice of `s` after its leading white space, ending where
      the trailing white space begins. */
  function Trim(s: string): (r: string)
    ensures |r| == 0 || (!IsSpace(r[0]) && !IsSpace(r[|r| - 1]))
    ensures LeadingSpaces(s) + |r| <= |s| && r == s[LeadingSpaces(s)..LeadingSpaces(s) + |r|]
    ensures OccursAt(s, r, LeadingSpaces(s))
    ensures forall k :: LeadingSpaces(s) + |r| <= k < |s| ==> IsSpace(s[k])
    ensures Contains(s, r)
  {
    var n, m := LeadingSpaces(s), SkipSpacesBack(s, |s|);
    var r := if n < m then s[n..m] else s[n..n];
    assert OccursAt(s, r, n);
    ContainsIffOccurs(s, r);
    r
  }

  /** Text with no white space at either end is left as it is by `trim`. */
  lemma TrimKeeps(s: string)
    requires |s| == 0 || (!IsSpace(s[0]) && !IsSpace(s[|s| - 1]))
    ensures Trim(s) == s
  {
    if |s| > 0 {
      LeadingSpacesAt(s, 0);
      assert !IsSpace(s[|s| - 1]);
    }
  }

  /** Dropping one leading white-space character does not change `trimStart`. */
  lemma TrimStartStep(s: string)
    requires |s| > 0 && IsSpace(s[0])
    ensures TrimStart(s) == TrimStart(s[1..])
  {
    var n := LeadingSpaces(s[1..]);
    assert forall k :: 1 <= k < n + 1 ==> s[k] == s[1..][k - 1];
    LeadingSpacesAt(s, n + 1);
  }

  lemma DashIsNotSpace()
    ensures !IsSpace('-')
  {
    assert '-' !in SpaceChars;
  }

  /** `s.replace(/\s+/g, "-")`: every maximal run of white space becomes one `-`. */
  function CollapseSpaces(s: string): (r: string)
    ensures forall i :: 0 <= i < |r| ==> !IsSpace(r[i])
    decreases |s|
  {
    DashIsNotSpace();
    if |s| == 0 then ""
    else if IsSpace(s[0]) then "-" + CollapseSpaces(TrimStart(s))
    else [s[0]] + CollapseSpaces(s[1..])
  }

  /** Text without white space is left as it is. */
  lemma {:induction false} CollapseSpacesNoSpace(s: string)
    requires forall i :: 0 <= i < |s| ==> !IsSpace(s[i])
    ensures CollapseSpaces(s) == s
  {
    if |s| > 0 {
      CollapseSpacesNoSpace(s[1..]);
      assert [s[0]] + s[1..] == s;
    }
  }

  /** White space followed by text that does not start with white space
      trims to that text. */
  lemma TrimStartSpaces(w: string, b: string)
    requires forall k :: 0 <= k < |w| ==> IsSpace(w[k])
    requires |b| == 0 || !IsSpace(b[0])
    ensures TrimStart(w + b) == b
  {
    LeadingSpacesAt(w + b, |w|);
    assert (w + b)[|w|..] == b;
  }

  /** Text that is not all white space trims the same with anything after it. */
  lemma TrimStartAppend(a: string, x: string)
    requires |TrimStart(a)| > 0
    ensures TrimStart(a + x) == TrimStart(a) + x
  {
    var n := LeadingSpaces(a);
    LeadingSpacesAt(a + x, n);
    assert (a + x)[n..] == a[n..] + x;
  }

  /** A maximal run of white space between two pieces becomes exactly one `-`,
      and the pieces on either side are rewritten independently. */
  lemma CollapseSpacesRun(a: string, w: string, b: string)
    requires |a| == 0 || !IsSpace(a[|a| - 1])
    requires |w| > 0 && forall k :: 0 <= k < |w| ==> IsSpace(w[k])
    requires |b| == 0 || !IsSpace(b[0])
    ensures CollapseSpaces(a + w + b) == CollapseSpaces(a) + "-" + CollapseSpaces(b)
  {
    var x := w + b;
    RunAtStart(w, b);
    RunBefore(a, x, CollapseSpaces(b));
    assert a + w + b == a + x;
  }

  /** The same after lower-casing: a white-space run between two pieces of
      the lower-cased text becomes exactly one `-`. */
  lemma LowerCollapseSpacesRun(a: string, w: string, b: string)
    requires |a| == 0 || !IsSpace(a[|a| - 1])
    requires |w| > 0 && forall k :: 0 <= k < |w| ==> IsSpace(w[k])
    requires |b| == 0 || !IsSpace(b[0])
    ensures CollapseSpaces(Lower(a + w + b))
         == CollapseSpaces(Lower(a)) + "-" + CollapseSpaces(Lower(b))
  {
    var la, lw, lb := Lower(a), Lower(w), Lower(b);
    assert Lower(a + w + b) == la + lw + lb;
    if |a| > 0 {
      LowerCharKeepsSpace(a[|a| - 1]);
    }
    forall k | 0 <= k < |w|
      ensures IsSpace(lw[k])
    {
      LowerCharKeepsSpace(w[k]);
    }
    if |b| > 0 {
      LowerCharKeepsSpace(b[0]);
    }
    CollapseSpacesRun(la, lw, lb);
  }

  /** Text ending in a non-space character, put before text that rewrites to
      `"-" + y`, rewrites on its own and is followed by `"-" + y`. */
  lemma {:induction false} RunBefore(a: string, x: string, y: string)
    requires |a| == 0 || !IsSpace(a[|a| - 1])
    requires CollapseSpaces(x) == "-" + y
    ensures CollapseSpaces(a + x) == CollapseSpaces(a) + "-" + y
    decreases |a|
  {
    if |a| == 0 {
      assert a + x == x;
    } else if !IsSpace(a[0]) {
      RunBefore(a[1..], x, y);
      RunAfterWord(a, x, y);
    } else {
      var t := TrimStart(a);
      assert !IsSpace(a[|a| - 1]);
      assert |t| > 0;
      RunBefore(t, x, y);
      RunAfterSpace(a, x, y);
    }
  }

  lemma RunAtStart(w: string, b: string)
    requires |w| > 0 && forall k :: 0 <= k < |w| ==> IsSpace(w[k])
    requires |b| == 0 || !IsSpace(b[0])
    ensures CollapseSpaces(w + b) == "-" + CollapseSpaces(b)
  {
    TrimStartSpaces(w, b);
    CollapseSpacesAtSpace(w + b);
  }

  lemma RunAfterWord(a: string, x: string, y: string)
    requires |a| > 0 && !IsSpace(a[0])
    requires CollapseSpaces(a[1..] + x) == CollapseSpaces(a[1..]) + "-" + y
    ensures CollapseSpaces(a + x) == CollapseSpaces(a) + "-" + y
  {
    var c, rest := a[0], a[1..];
    assert a + x == [c] + (rest + x);
    assert a == [c] + rest;
    CollapseSpacesAtWord(c, rest + x);
    CollapseSpacesAtWord(c, rest);
    PrefixAround([c], CollapseSpaces(rest), y);
  }

  lemma RunAfterSpace(a: string, x: string, y: string)
    requires |a| > 0 && IsSpace(a[0]) && |TrimStart(a)| > 0
    requires CollapseSpaces(TrimStart(a) + x) == CollapseSpaces(TrimStart(a)) + "-" + y
    ensures CollapseSpaces(a + x) == CollapseSpaces(a) + "-" + y
  {
    var t := TrimStart(a);
    var p := CollapseSpaces(t);
    TrimStartAppend(a, x);
    CollapseSpacesAtSpace(a + x);
    CollapseSpacesAtSpace(a);
    assert CollapseSpaces(a + x) == "-" + CollapseSpaces(t + x);
    PrefixAround("-", p, y);
  }

  lemma PrefixAround(u: string, p: string, y: string)
    ensures u + (p + "-" + y) == (u + p) + "-" + y
  {
  }

  /** One step of `CollapseSpaces` over a leading non-space character. */
  lemma CollapseSpacesAtWord(c: char, s: string)
    requires !IsSpace(c)
    ensures CollapseSpaces([c] + s) == [c] + CollapseSpaces(s)
  {
    assert ([c] + s)[1..] == s;
  }

  /** One step of `CollapseSpaces` over a leading white-space run. */
  lemma CollapseSpacesAtSpace(s: string)
    requires |s| > 0 && IsSpace(s[0])
    ensures CollapseSpaces(s) == "-" + CollapseSpaces(TrimStart(s))
  {
  }
}

=== FILE: theme.dfy ===
/** The light/dark theme switch every page carries: the stored preference is
    applied on load, and each click flips the page's `data-theme` attribute. */
module Theme {
  import opened Basics

  const Light := "light"
  const Dark := "dark"

  predicate IsTheme(t: string) {
    t == Light || t == Dark
  }

  /** The theme applied on load: the stored value, unless nothing or the empty
      string is stored, when the page starts light. */
  function InitialTheme(saved: Option<string>): (t: string)
    ensures t != ""
    ensures IsTheme(t) <==> saved.None? || saved.value == "" || IsTheme(saved.value)
    ensures saved.Some? && saved.value != "" ==> t == saved.value
    ensures saved.None? || saved.value == "" ==> t == Light
  {
    if saved.Some? && saved.value != "" then saved.value else Light
  }

  /** The click handler: dark only when the current attribute is exactly
      `light`; any other value, or no attribute at all, goes to light. */
  function Toggle(current: Option<string>): (next: string)
    ensures IsTheme(next)
    ensures next == Dark <==> current == Some(Light)
  {
    if current == Some(Light) then Dark else Light
  }

  /** Two clicks from either theme come back to it. */
  lemma ToggleInvolution(t: string)
    requires IsTheme(t)
    ensures Toggle(Some(Toggle(Some(t)))) == t
  {
  }

  /** A stored value that is not a theme is replaced by light on the first
      click, and the page alternates from then on. */
  lemma ToggleRepairs(current: Option<string>)
    requires current.None? || !IsTheme(current.value)
    ensures Toggle(current) == Light
    ensures Toggle(Some(Toggle(Some(Toggle(current))))) == Light
  {
  }

  /** The click stores the theme it applies, so a reload starts from the
      theme the last click chose. */
  lemma ReloadKeepsToggle(current: Option<string>)
    ensures InitialTheme(Some(Toggle(current))) == Toggle(current)
  {
  }
}

=== FILE: user_page.dfy ===
/** The patient profile page: its text helpers, the status pill of the claims
    list, and the profile card, including the medical-history line. */
module UserPage {
  import opened Basics
  import opened Seqs
  import opened Text
  import opened Js
  import opened AuditTable

  /** `safe(v)`: the empty string for `null` and `undefined`, `String(v)` otherwise. */
  function Safe(v: Value): (r: string)
    ensures v == Null || v == Undefined ==> r == ""
    ensures v.Str? ==> r == v.s
    ensures v.Int? ==> ParseInteger(r) == Some(v.i)
    ensures v.Bool? ==> r == (if v.b then "true" else "false")
    ensures r == "" <==> v == Null || v == Undefined || v == Str("")
  {
    match v
    case Null => ""
    case Undefined => ""
    case Int(i) => IntegerTextRoundTrip(i); ToText(v)
    case _ => ToText(v)
  }

  /** `formatAmount`: `-` for every falsy amount, `0` included; otherwise a
      dollar sign and `parseFloat(amount).toFixed(2)`. The text conversion of a
      numeric string is the page's `toFixed2` parameter; an integer prints
      with `.00`, and `true` parses to NaN. */
  function FormatAmount(amount: Value, toFixed2: string -> string): (r: string)
    ensures r == "-" <==> Falsy(amount)
    ensures !Falsy(amount) ==> |r| >= 1 && r[0] == '$'
    ensures amount.Int? && amount.i != 0 ==> r == "$" + IntegerText(amount.i) + ".00"
    ensures amount == Bool(true) ==> r == "$NaN"
  {
    if Falsy(amount) then "-"
    else
      match amount
      case Int(i) => "$" + IntegerText(i) + ".00"
      case Str(s) => assert ("$" + toFixed2(s))[0] == '$'; "$" + toFixed2(s)
      case _ => "$NaN"
  }

  /** A non-zero integer amount can be read back from its displayed text. */
  lemma FormatAmountReadsBack(i: SafeInteger, toFixed2: string -> string)
    requires i != 0
    ensures var r := FormatAmount(Int(i), toFixed2);
            |r| > 4 && ParseInteger(r[1..|r| - 3]) == Some(i)
  {
    var r := FormatAmount(Int(i), toFixed2);
    assert r[1..|r| - 3] == IntegerText(i);
    IntegerTextRoundTrip(i);
  }

  /** `status.toLowerCase().replace(/\s+/g, '-')`. */
  function PillClass(status: string): (r: string)
    ensures forall k :: 0 <= k < |r| ==> !IsSpace(r[k])
  {
    CollapseSpaces(Lower(status))
  }

  /** Calling `toLowerCase` on a number or on `true`. */
  datatype TypeError = NotAString(v: Value)

  /** A status pill: its CSS class and its caption. */
  datatype Pill = Pill(className: string, caption: string)

  /** `statusPill`: a falsy status gets `status-unknown`; a string status gets
      its lower-cased, dash-joined form; any other truthy value throws. */
  function StatusPill(status: Value): (r: Result<Pill, TypeError>)
    ensures r.Err? <==> !Falsy(status) && !status.Str?
    ensures r.Ok? ==> r.value.caption == Safe(status)
    ensures r.Ok? ==> IsPrefix("status-", r.value.className)
    ensures r.Ok? ==> forall k :: 0 <= k < |r.value.className| ==> !IsSpace(r.value.className[k])
    ensures Falsy(status) ==> r == Ok(Pill("status-unknown", Safe(status)))
    ensures status.Str? && status.s != "" ==> r == Ok(Pill("status-" + PillClass(status.s), status.s))
  {
    assert forall k :: 0 <= k < 7 ==> !IsSpace("status-"[k]) by {
      DashIsNotSpace();
    }

    if Falsy(status) then Ok(Pill("status-unknown", Safe(status)))
    else if status.Str? then Ok(Pill("status-" + PillClass(status.s), status.s))
    else Err(NotAString(status))
  }

  /** A white-space run between two words of the status becomes one `-`,
      and the words are rewritten independently. */
  lemma PillClassRun(a: string, w: string, b: string)
    requires |a| == 0 || !IsSpace(a[|a| - 1])
    requires |w| > 0 && forall k :: 0 <= k < |w| ==> IsSpace(w[k])
    requires |b| == 0 || !IsSpace(b[0])
    ensures PillClass(a + w + b) == PillClass(a) + "-" + PillClass(b)
  {
    LowerCollapseSpacesRun(a, w, b);
  }

  /** A status without white space keeps every character, its dashes
      included; only the letter case changes. */
  lemma PillClassNoSpace(s: string)
    requires forall k :: 0 <= k < |s| ==> !IsSpace(s[k])
    ensures PillClass(s) == Lower(s)
  {
    forall k | 0 <= k < |s|
      ensures !IsSpace(Lower(s)[k])
    {
      LowerCharKeepsSpace(s[k]);
    }
    CollapseSpacesNoSpace(Lower(s));
  }

  /** Characters that the pill class carries over unchanged. */
  predicate IsKept(c: char) {
    !IsSpace(c) && c != '-'
  }

  /** Apart from white space runs turning into `-`, the pill class is the
      lower-cased status: no other character is dropped or changed. */
  lemma PillClassKeepsText(status: string)
    ensures Filter(PillClass(status), IsKept) == Filter(Lower(status), IsKept)
  {
    CollapseSpacesFilter(Lower(status), IsKept);
  }

  /** Where the table's class sanitiser drops a character, the pill keeps it:
      a non-space, non-dash character of the lower-cased status outside
      `[a-z0-9_-]` appears in the pill class and not in the sanitised class. */
  lemma PillKeepsWhatSanitizeDrops(status: string, c: char)
    requires c in Lower(status) && IsKept(c) && !IsClassChar(c)
    ensures c in PillClass(status)
    ensures c !in SanitizeText(status)
  {
    PillClassKeepsText(status);
    assert c in Filter(Lower(status), IsKept);
    assert c in Filter(PillClass(status), IsKept);
  }

  /** `user.medical_history`: any non-array value, or an array of entries. */
  datatype History = NotAnArray | Entries(items: seq<Value>)

  /** `Array.prototype.join` prints `null` and `undefined` entries as empty,
      exactly as `safe` does. */
  function EntryTexts(items: seq<Value>): (texts: seq<string>)
    ensures |texts| == |items|
    ensures forall k :: 0 <= k < |items| ==> texts[k] == Safe(items[k])
  {
    seq(|items|, k requires 0 <= k < |items| => Safe(items[k]))
  }

  /** The medical-history line: `-` for a missing or empty list, otherwise the
      entries in order, separated by `", "`. */
  function HistoryText(h: History): (r: string)
    ensures h.NotAnArray? || |h.items| == 0 ==> r == "-"
    ensures h.Entries? && |h.items| > 0 ==> IsPrefix(Safe(h.items[0]), r)
    ensures h.Entries? && |h.items| == 1 ==> r == Safe(h.items[0])
    ensures h.Entries? && |h.items| > 0 ==> r == Join(EntryTexts(h.items), ", ")
  {
    if h.Entries? && |h.items| > 0 then
      JoinStartsWithFirst(EntryTexts(h.items), ", ");
      Join(EntryTexts(h.items), ", ")
    else "-"
  }

  /** Each part with one leading space, as it follows a `", "` separator. */
  function Spaced(parts: seq<string>): (r: seq<string>)
    ensures |r| == |parts|
    ensures forall k :: 0 <= k < |parts| ==> r[k] == " " + parts[k]
  {
    seq(|parts|, k requires 0 <= k < |parts| => " " + parts[k])
  }

  lemma {:induction false} JoinSpaced(parts: seq<string>)
    requires |parts| >= 1
    ensures " " + Join(parts, ", ") == Join(Spaced(parts), ",")
  {
    if |parts| > 1 {
      JoinSpaced(parts[1..]);
      assert Spaced(parts)[1..] == Spaced(parts[1..]);
      assert " " + Join(parts, ", ") == (" " + parts[0]) + "," + (" " + Join(parts[1..], ", "));
    }
  }

  /** When no entry contains a comma, the history line splits at its commas
      back into the entries, each after the first carrying the separator's space. */
  lemma HistoryTextSplits(items: seq<Value>)
    requires |items| > 0
    requires forall k :: 0 <= k < |items| ==> ',' !in Safe(items[k])
    ensures Split(HistoryText(Entries(items)), ',')
         == [Safe(items[0])] + Spaced(EntryTexts(items)[1..])
  {
    var texts := EntryTexts(items);
    var parts := [texts[0]] + Spaced(texts[1..]);
    if |items| > 1 {
      JoinSpaced(texts[1..]);
      assert Join(texts, ", ") == texts[0] + "," + (" " + Join(texts[1..], ", "));
      assert parts[1..] == Spaced(texts[1..]);
      assert Join(parts, ",") == Join(texts, ", ");
    }
    forall k | 0 <= k < |parts|
      ensures ',' !in parts[k]
    {
      if k > 0 {
        assert parts[k] == " " + texts[k];
      }
    }
    SplitJoin(parts, ',');
  }

  /** A patient record as the profile endpoint returns it. */
  datatype UserRecord = UserRecord(
    firstName: Value,
    lastName: Value,
    patientId: Value,
    age: Value,
    gender: Value,
    phoneNo: Value,
    insuranceId: Value,
    address: Value,
    medicalHistory: History)

  /** The texts the profile card and the sidebar show. */
  datatype Profile = Profile(
    fullName: string,
    patientIdLine: string,
    age: string,
    gender: string,
    phone: string,
    insuranceId: string,
    address: string,
    medicalHistory: string,
    username: string,
    sidebarName: string)

  /** `safe(v) || "-"`. */
  function OrDash(s: string): (r: string)
    ensures r != ""
    ensures s != "" ==> r == s
  {
    if s == "" then "-" else s
  }

  /** Two names with no white space at their outer ends. */
  predicate PlainNames(first: string, last: string) {
    |first| > 0 && |last| > 0 && !IsSpace(first[0]) && !IsSpace(last[|last| - 1])
  }

  /** The two names joined by one space, before trimming. */
  function JoinedName(u: UserRecord): string {
    Safe(u.firstName) + " " + Safe(u.lastName)
  }

  /** The name line: `first + " " + last` without the white space at its ends. */
  function FullName(u: UserRecord): (r: string)
    ensures |r| == 0 || (!IsSpace(r[0]) && !IsSpace(r[|r| - 1]))
    ensures OccursAt(JoinedName(u), r, LeadingSpaces(JoinedName(u)))
    ensures forall k :: LeadingSpaces(JoinedName(u)) + |r| <= k < |JoinedName(u)| ==> IsSpace(JoinedName(u)[k])
    ensures Contains(JoinedName(u), r)
    ensures PlainNames(Safe(u.firstName), Safe(u.lastName)) ==> r == JoinedName(u)
  {
    PlainNamesKept(u);
    Trim(JoinedName(u))
  }

  /** Joining two plain names leaves nothing for `trim` to remove. */
  lemma PlainNamesKept(u: UserRecord)
    ensures PlainNames(Safe(u.firstName), Safe(u.lastName)) ==> Trim(JoinedName(u)) == JoinedName(u)
  {
    var first, last := Safe(u.firstName), Safe(u.lastName);
    if PlainNames(first, last) {
      var s := JoinedName(u);
      assert s[0] == first[0];
      assert s[|s| - 1] == last[|last| - 1];
      TrimKeeps(s);
    }
  }

  /** `renderProfile`. */
  function RenderProfile(u: UserRecord): (p: Profile)
    ensures p.sidebarName == p.fullName
    ensures PlainNames(Safe(u.firstName), Safe(u.lastName)) ==>
              p.fullName == Safe(u.firstName) + " " + Safe(u.lastName)
    ensures p.patientIdLine == "Patient ID: " + Safe(u.patientId)
    ensures p.age == "-" <==> Falsy(u.age)
    ensures !Falsy(u.age) ==> p.age == Safe(u.age) + " years"
    ensures p.gender != "" && p.phone != "" && p.insuranceId != "" && p.address != ""
    ensures Safe(u.gender) != "" ==> p.gender == Safe(u.gender)
    ensures Safe(u.phoneNo) != "" ==> p.phone == Safe(u.phoneNo)
    ensures Safe(u.insuranceId) != "" ==> p.insuranceId == Safe(u.insuranceId)
    ensures Safe(u.address) != "" ==> p.address == Safe(u.address)
    ensures Safe(u.gender) == "" ==> p.gender == "-"
    ensures Safe(u.phoneNo) == "" ==> p.phone == "-"
    ensures Safe(u.insuranceId) == "" ==> p.insuranceId == "-"
    ensures Safe(u.address) == "" ==> p.address == "-"
    ensures p.medicalHistory == HistoryText(u.medicalHistory)
    ensures p.username == (if Safe(u.firstName) == "" then "User" else Safe(u.firstName))
  {
    var name := FullName(u);
    Profile(
      fullName := name,
      patientIdLine := "Patient ID: " + Safe(u.patientId),
      age := if Falsy(u.age) then "-" else Safe(u.age) + " years",
      gender := OrDash(Safe(u.gender)),
      phone := OrDash(Safe(u.phoneNo)),
      insuranceId := OrDash(Safe(u.insuranceId)),
      address := OrDash(Safe(u.address)),
      medicalHistory := HistoryText(u.medicalHistory),
      username := if Safe(u.firstName) == "" then "User" else Safe(u.firstName),
      sidebarName := name)
  }

  /** A blank first and last name leave an empty name, not a lone space. */
  lemma BlankNameIsEmpty(u: UserRecord)
    requires Safe(u.firstName) == "" && Safe(u.lastName) == ""
    ensures RenderProfile(u).fullName == ""
  {
    assert Safe(u.firstName) + " " + Safe(u.lastName) == " ";
  }
}
